=== FILE: README.md ===
# Portfolio script core, modelled in Dafny

`script.js` drives a portfolio page. It has two parts. One is a grid of the owner's GitHub repositories, which can be filtered, sorted and paged in from the API. The other is a citation pop-up that renders APA, MLA and Harvard strings from citation metadata.

This project models the pure logic behind those features:

- the repository view filter (`applyRepoFilters`);
- the sort selector (`sortRepos`);
- the "Live" homepage link rule of a repository card;
- the paging loop of `fetchAllRepos`, run against an abstract page oracle;
- the name helpers (`normalizeName`, `invertName`, `toSurnameInitials`);
- the three author-list joiners;
- `buildCitations` and `monthName`;
- the relative-time label `timeAgo`.

Modules, one per file:

| file | module | contents |
|---|---|---|
| `options.dfy` | `Options` | `Option`, with `GetOr` playing the part of `??` / `\|\|` defaults |
| `seqs.dfy` | `Seqs` | `Array.prototype.filter` and `map` on sequences, and order-preserving subsequences |
| `text.dfy` | `Text` | the string built-ins the script relies on (details below) |
| `repos.dfy` | `Repos` | the `Repo` record, the filter criteria, the view filter, the homepage link |
| `sorting.dfy` | `RepoSort` | a stable insertion sort and the per-key sort selector |
| `pagination.dfy` | `Pagination` | the paging loop and its reference definition |
| `timeago.dfy` | `RelativeTime` | the minute/hour/day/month/year cascade |
| `names.dfy` | `Names` | name normalisation, inversion, initials, and the three joiners |
| `citations.dfy` | `Citations` | `monthName`, the author list, and the three citation templates |

The string built-ins in `Text` are:

- `trim`;
- `replace(/\s+/g, " ")`;
- `split(/\s+/)` and `join`;
- ASCII `toLowerCase` / `toUpperCase`;
- `startsWith` and `includes`;
- decimal rendering of integers.

Whitespace is the exact ECMAScript set that both `trim` and `\s` use: WhiteSpace and LineTerminator, 25 code points.

Inputs the script reads from the page, the clock or the network are parameters:

- the filter criteria (search text, the two toggles, the sort key);
- the page oracle `respond(page)`;
- the elapsed milliseconds for `timeAgo`;
- the access date (day of month, month index, full year) for `buildCitations`.

## Model

| member | source | states |
|---|---|---|
| Repos.FilterRepos | script.js:44-60 | A repository is in the view exactly when it is in the listing and passes every check of the filter callback. A kept repository appears as often as the listing repeats it, and the view keeps the listing's order (it is a subsequence of the listing). |
| Repos.HardExclusions | script.js:50-52 | A repository whose lower-cased name starts with "plp", or is one of the blocked names, is never in the view, whatever the search text and toggles. |
| Repos.FilterShape | script.js:45-59 | Every repository in the view satisfies each filter condition: the fork toggle, the archived toggle, and the hidden-prefix and blocked-name exclusions. If the trimmed, lower-cased query is non-empty, it occurs in the lower-cased `name + " " + description` (an absent description counts as ""). |
| Repos.FilterIdempotent | script.js:50-60 | Filtering the view again with the same criteria returns the same view. |
| Repos.PlpDemoHidden | script.js:51 | `plp-demo` is hidden even with both toggles on and an empty search. |
| Repos.BlockedCaseVariantHidden | script.js:8 | The blocked-name test ignores case: `Jethro-Portfolio` is hidden. |
| Repos.SearchFindsNameFragment | script.js:55-58 | The search also looks at the name. A repository passes the search, and is shown, when its lower-cased name contains the query and it passes the other checks. Its description does not matter. |
| Repos.HomepageLink | script.js:114-116 | There is a link exactly when the homepage is non-empty. A homepage that starts with "http" is used unchanged; any other homepage gets the prefix "https://". The link always starts with "http" and ends with the homepage. |
| Repos.HomepageLinkKeepsSchemelessHttpHost | script.js:115 | The host `httpbin.org` passes the "http" test and is linked unchanged, though it has no http(s) scheme. |
| Repos.HomepageUrl | script.js:114-116 | The corrected rule. There is a link exactly when the homepage is non-empty. A homepage that already has an `http://` or `https://` scheme is kept as it is; every other homepage becomes exactly "https://" followed by the homepage. So the link always has an explicit web scheme. |
| Repos.HomepageUrlIdempotent | script.js:115 | Applying the corrected rule to its own output changes nothing. |
| RepoSort.InsertMultiset | script.js:66-75 | The insertion step returns exactly the old elements plus the new one, as a multiset. |
| RepoSort.InsertDescending | script.js:66-75 | Inserting into a sequence already in descending rank order keeps it in that order. |
| RepoSort.SortDescSpec | script.js:66-75 | The sort's output is in descending rank order and is a permutation of the input. |
| RepoSort.SortDescStable | script.js:66-75 | For every rank, the records with that rank appear in the output in the same relative order as in the input. This is the stability of `Array.prototype.sort`. |
| RepoSort.StableSortUnique | script.js:66-75 | Any two descending sequences that agree on every rank's subsequence are equal. So the sort is the only stable descending sort. |
| RepoSort.RankForOrder | script.js:67-74 | Descending by the selected rank means, per key: star counts non-increasing for "stars"; names in ascending collation order for "name"; push times non-increasing for "updated" and every other key. |
| RepoSort.SortRepos | script.js:66-75 | The result is a permutation of the list. It is ordered by the selected key: stars descending (a missing count is 0), names ascending in the collation, or push time descending for "updated" and any unrecognised key. |
| RepoSort.SortReposStable | script.js:66-75 | Records that tie under the selected key keep their input order. |
| RepoSort.ApplyRepoFilters | script.js:44-62 | The view is the filtered listing, stably sorted. Each repository that passes the filter appears as often as in the listing, and no other does. The view is in descending order of the rank the sort key selects, and records of equal rank keep their listing order. |
| RepoSort.ApplyRepoFiltersUnique | script.js:44-62 | Any descending arrangement of the filtered repositories that keeps each rank's records in listing order is the view. |
| RepoSort.ApplyRepoFiltersIdempotent | script.js:44-62 | Applying the same criteria, sort key included, to the view again gives the same ordered view. |
| RepoSort.StarsExample | script.js:68-69 | Star counts [5, 10, 5] sort to [10, 5, 5], with the two fives in input order. |
| Pagination.FetchAllRepos | script.js:123-137 | The loop makes between 1 and 10 requests, and every page before the last one requested is a full page of 100. It fails exactly when the last request failed, with that request's status and no partial list. On success the last page is short or is the tenth page, and the records are the pages concatenated in request order. Outcome and request count equal the reference definition. |
| Pagination.CapTruncates | script.js:133-134 | When pages `p` to 10 are all full, the loader returns exactly those pages' records and makes exactly `11 - p` more requests. Records beyond page 10 are never requested. |
| Pagination.ThreePages | script.js:131-133 | Two full pages followed by a page of 40 give 240 records from 3 requests. |
| RelativeTime.Bucket | script.js:288-297 | The cascade picks minutes below one hour, hours below one day, days below 30 days, months below 12 such months, and years otherwise. The shown amount is the floor of the elapsed time divided by the unit's length. |
| RelativeTime.TimeAgo | script.js:285-298 | The label is a canonical decimal integer followed by the unit's suffix ("m ago", "h ago", "d ago", "mo ago", "y ago"). The integer has no leading zero and no stray characters, and it reads back as the floored count of whole units elapsed. |
| RelativeTime.TimeAgoLabels | script.js:288-297 | Unit by unit, the label is exactly the decimal rendering of the elapsed milliseconds floored by the unit's length, followed by that unit's suffix. |
| RelativeTime.FiftyNineMinutes | script.js:289 | 59 minutes read "59m ago". |
| RelativeTime.OneHour | script.js:290-291 | 60 minutes read "1h ago". |
| RelativeTime.OneDay | script.js:292-293 | 24 hours read "1d ago". |
| RelativeTime.OneMonth | script.js:294-295 | 30 days read "1mo ago". |
| RelativeTime.OneYear | script.js:296-297 | 360 days read "1y ago". |
| RelativeTime.DivDiv | script.js:290-296 | Flooring a floored quotient again equals flooring once by the product. So `hrs`, `days`, `months` and `years` are floors of the elapsed milliseconds. |
| Text.TrimSpec | script.js:237 | `trim` removes only whitespace, leaves none at either end, and keeps a contiguous slice of the input with all of its visible characters. |
| Text.TrimUntrimmed | script.js:237 | A string with no whitespace at either end is its own trim. |
| Text.CollapseSpec | script.js:237 | Replacing every whitespace run by one space leaves no run longer than one plain space and keeps the visible characters in order. |
| Text.CollapseEnds | script.js:237 | The replacement is empty exactly when its input is, and it starts (ends) with whitespace exactly when its input does. |
| Text.CollapseSingle | script.js:237 | After the replacement every whitespace character is a plain space followed by a visible character or the end. |
| Text.CollapseVisible | script.js:237 | The replacement keeps the visible characters and their order. |
| Text.CollapseSingleSpaced | script.js:237 | A string whose whitespace is already single plain spaces is unchanged by the replacement. |
| Text.SplitJoinRoundTrip | script.js:240 | Splitting single-space-joined words at whitespace gives back the words. |
| Text.SplitSpacesWords | script.js:240 | Splitting a string with no whitespace at either end at whitespace runs gives only non-empty, whitespace-free fields. |
| Text.JoinSplitIsCollapse | script.js:240-243 | Joining the whitespace-split fields with single spaces is the same as collapsing the whitespace runs. |
| Text.IntToStringRoundTrip | script.js:289 | The decimal rendering of an integer reads back as that integer. |
| Text.DecimalRoundTrip | script.js:289 | A canonical decimal integer is the rendering of the value it reads as. So no other spelling of a number (such as "020" or "1:") can pass for a rendered one. |
| Names.NormalizeName | script.js:235-238 | The normalized name is the name's whitespace-separated words joined by single spaces. So it has no whitespace at either end, every inner whitespace run is one plain space, and its visible characters are the input's. |
| Names.NormalizeEntry | script.js:235-237 | An entry that is not a string normalizes to "". A string entry normalizes as `normalizeName` does. |
| Names.NormalizeIdempotent | script.js:235-238 | Normalizing twice is normalizing once. |
| Names.NormalizedFixpoint | script.js:237 | An already normalized name is returned unchanged. |
| Names.NormalizedNameWords | script.js:235-244 | A non-empty normalized name, as every author-list entry is, splits into non-empty words that join back to the name. So `invertName` and `toSurnameInitials` see exactly the words that `InvertWords` and `InitialsWords` describe. |
| Names.InvertWords | script.js:239-244 | A single word is returned as it is. For two or more words, the result is the last word, ", ", then the other words joined by single spaces, in order. |
| Names.InitialsWords | script.js:245-251 | A single word is returned as it is. For two or more words, the result is the last word, ", ", then, for each other word in order, its upper-cased first letter and ".", separated by spaces. |
| Names.SingleWordUnchanged | script.js:241 | A one-word name is its own inverted and surname-initials form. |
| Names.SeriesIsListing | script.js:255-256 | The join/slice formula is the serial list: the lone part; "p0 <conj> p1"; or every part but the last followed by ", ", then the conjunction and the last part. |
| Names.FormatAuthorsAPA | script.js:252-257 | APA is the serial list of the surname-initials forms with "&". |
| Names.FormatAuthorsHarvard | script.js:264-269 | Harvard is the serial list of the surname-initials forms with "and". |
| Names.FormatAuthorsMLA | script.js:258-263 | MLA lays out the first author inverted and nothing more for one author. For two it is the first inverted, ", and ", the second inverted. From three on it is the first inverted followed by ", et al.". |
| Names.MlaTwoAuthors | script.js:261 | Two authors read exactly `invertName(a0) + ", and " + invertName(a1)`. |
| Names.MlaUsesFirstAuthorOnly | script.js:258-263 | From three authors on, MLA is the first author inverted followed by ", et al.", so author lists that share a first author give the same text. |
| Names.JaneAnnDoeInitials | script.js:245-251 | "Jane Ann Doe" has the surname-initials form "Doe, J. A.". |
| Names.DoeUnchanged | script.js:239-251 | "Doe" is left as it is by both name forms. |
| Names.TwoWordName | script.js:239-251 | A two-word name "First Last" has the surname-initials form "Last, F." and the inverted form "Last, First". |
| Names.TwoWordForms | script.js:254 | For authors that are two-word names, the mapped parts are "Last, F." for each author, in order. |
| Names.SerialOfThree | script.js:255-256 | Three parts p0, p1, p2 read "p0, p1, <conj> p2". |
| Names.ThreeAuthors | script.js:252-257 | Three two-word authors "F0 L0", "F1 L1", "F2 L2" read "L0, I0., L1, I1., & L2, I2." in APA, where Ik is the upper-cased first letter of Fk, and the same with "and" in Harvard. |
| Names.ThreeAuthorsMla | script.js:258-263 | Three or more two-word authors read "L0, F0, et al." in MLA. |
| Names.OneAuthorMla | script.js:260 | A single two-word author "F0 L0" reads "L0, F0" in MLA. |
| Names.TwoAuthorsMla | script.js:261 | Two two-word authors read "L0, F0, and L1, F1" in MLA. |
| Citations.MonthName | script.js:270-272 | A month index 0 to 11 gives a three-letter, space-free entry of the fixed month table. |
| Citations.MonthIndex | script.js:271 | Looking an abbreviation up in the month table gives an index whose entry is that abbreviation, or nothing when no entry matches. |
| Citations.MonthNameRoundTrip | script.js:270-272 | Looking a month's abbreviation up again gives back the month index. |
| Citations.MonthsDistinct | script.js:271 | Different month indexes have different abbreviations. |
| Citations.AuthorList | script.js:218-219 | A name is in the author list exactly when it is a non-empty normalized form of an entry (there are none when `authors` is not an array). The list keeps entry order, and every name in it is non-empty and normalized. |
| Citations.AuthorListCounts | script.js:219 | Each non-empty normalized name is listed as often as the entries produce it, so a repeated author is kept twice. |
| Citations.BlankAuthorsAreUnknown | script.js:218-219 | Entries that are all non-strings, empty or blank give an empty author list. |
| Text.ConcatLaid | script.js:228-230 | The text of a template literal holds each piece at the offset given by the total length of the pieces before it, and is exactly as long as all pieces together. |
| Citations.Apa | script.js:228 | The APA string holds the authors, " (", year, "). ", title, ". ", venue, ". " and url, in that order at consecutive offsets. |
| Citations.Mla | script.js:229 | The MLA string holds the authors, ". “", title, ".” ", venue, ", ", year, ", ", url and ".", in that order at consecutive offsets. |
| Citations.Harvard | script.js:230 | The Harvard string holds the authors, " ", year, ". ", title, ". ", venue, ". Available at: ", url, " (Accessed ", the date and ").", in that order at consecutive offsets. |
| Citations.BuildCitations | script.js:213-233 | Each style's string lays out that style's template pieces. The author part is the style's own author list, or "[Author(s) unknown]" when there are no authors; the fields are the defaulted ones. Only Harvard contains the access date. |
| Citations.SameFields | script.js:213-233 | Two metadata records with the same authors and the same defaulted fields give the same citations. |
| Citations.TitleDefault | script.js:214 | A missing or empty title gives the same citations as the title "Untitled"; a non-empty title is used as given. |
| Citations.YearDefault | script.js:216 | A missing or empty year gives the same citations as "n.d."; a non-empty year is used as given. |
| Citations.VenueDefault | script.js:217 | A missing or empty venue gives the same citations as "Repository"; a non-empty venue is used as given. |
| Citations.UrlDefault | script.js:215 | A missing URL gives the same citations as the empty URL; a given URL is used as it is. |
| Citations.CitationsOpenWithAuthors | script.js:221-230 | Without a usable author all three strings start with "[Author(s) unknown]". With authors, each string starts with its own style's author list. |
| Citations.HarvardEndsWithAccessDate | script.js:230 | The Harvard string ends with " (Accessed <date>).". |
| Citations.AccessDateOnlyInHarvard | script.js:228-229 | The APA and MLA strings are the same for every access date. |
| Citations.AccessedTextRoundTrip | script.js:226 | The access date text splits into three fields. They read back as the day, the month index and the year. |

## Left out

- DOM construction, rendering, the "<N> repos" label and event wiring (`el`, `a`, `chip`, `renderRepos`, `initRepos`, `initCitations`, `openCite`/`closeCite`) are side effects with no result to state.
- `fetch`, `res.json()` and the request URL and headers are network I/O. The page oracle stands in for them. A rejected `fetch` or a body that is not a JSON array is not modelled; each successful page is a sequence of records.
- `copyToClipboard` is a wrapper over browser APIs.
- Date parsing and the clock (`new Date(...)`, `Date.now()`, `getDate`/`getMonth`/`getFullYear`) are replaced by parameters: push times as integers, `timeAgo`'s elapsed milliseconds, and the access date.
- Invalid dates (`NaN`) are not modelled: neither `timeAgo` returning "NaNy ago" nor a `NaN` comparator in the "updated" sort.
- Floating-point division is not modelled. `Math.floor(diff/60000)` is taken as exact integer floor division, which it is for elapsed times below 2^53 milliseconds.
- `localeCompare` is not modelled. Its locale collation is replaced by a caller-supplied integer rank on names, and the "name" sort is stated relative to that rank.
- Case folding is ASCII only, not full Unicode `toLowerCase`/`toUpperCase`. The whitespace set is exact.
- Names.InitialsWords: strings are sequences of Unicode code points, not UTF-16 code units. `t[0]` on a word whose first character lies outside the Basic Multilingual Plane (such as "𠮷野") yields a lone high surrogate in the script; the model takes the whole character as the initial.
- Names.FormatAuthorsMLA: requires at least one author. On an empty list the script would call `invertName(undefined)` and throw; `buildCitations` never does this, because it only formats a non-empty list.
- Non-string values in `buildCitations` fields are not modelled; the title, year, venue and URL are strings or absent. A numeric `year` would be rendered through the same template.
- `Array.prototype.sort` works in place; the model returns the sorted sequence.
- The 10-page cap is kept as written: records beyond page 10 are dropped silently (`Pagination.CapTruncates`).

## Findings

| source | as written | input that shows it | evidently intended | confidence | as-written member | corrected member |
|---|---|---|---|---|---|---|
| script.js:115 | A homepage is linked unchanged when it starts with the four letters "http". | The homepage `httpbin.org` is linked as `httpbin.org`, a relative link without a scheme, instead of `https://httpbin.org`. | Keep only homepages that already carry an `http://` or `https://` scheme; prefix every other one with `https://`. This is deliberately narrower than "any URI scheme": the link is a web page, so an `ftp:`, `mailto:` or upper-case `HTTPS:` homepage also gets the prefix. | medium, not executed | Repos.HomepageLinkKeepsSchemelessHttpHost | Repos.HomepageUrl |

=== FILE: citations.dfy ===
/**
 * `buildCitations` and `monthName` in script.js: the APA, MLA and Harvard
 * citation strings of the page's citation metadata.
 *
 * The access date, which the script reads from the clock, is a parameter:
 * day of the month, month index (0 for January) and full year.
 */
module Citations {
  import opened Options
  import opened Text
  import opened Names
  import Seqs

  /**
   * The citation metadata object. A text field is `None` when it is missing or
   * falsy. `authors` is `None` when the field is not an array; an entry is
   * `None` when it is not a string.
   */
  datatype Meta = Meta(
    title: Option<string>,
    url: Option<string>,
    year: Option<string>,
    venue: Option<string>,
    authors: Option<seq<Option<string>>>
  )

  datatype AccessDate = AccessDate(day: int, month: int, year: int)

  datatype Citations = Citations(apa: string, mla: string, harvard: string)

  /** What every style shows in place of an empty author list. */
  const Unknown: string := "[Author(s) unknown]"

  const Months: seq<string> := ["Jan", "Feb", "Mar", "Apr", "May", "Jun", "Jul", "Aug", "Sep", "Oct", "Nov", "Dec"]

  // ---------------------------------------------------------------- months

  /** `monthName`: the three-letter English abbreviation of a month index. */
  function MonthName(m: int): (name: string)
    requires 0 <= m < 12
    ensures |name| == 3 && NoSpace(name)
    ensures name in Months
  {
    Months[m]
  }

  /** The month index an abbreviation stands for, if any. */
  function MonthIndex(name: string): (m: Option<int>)
    ensures m.Some? ==> 0 <= m.value < 12 && Months[m.value] == name
    ensures m.None? ==> name !in Months
  {
    FindMonth(name, 0)
  }

  function FindMonth(name: string, from: nat): (m: Option<int>)
    requires from <= 12
    ensures m.Some? ==> from <= m.value < 12 && Months[m.value] == name
    ensures m.None? ==> forall i :: from <= i < 12 ==> Months[i] != name
    decreases 12 - from
  {
    if from == 12 then None
    else if Months[from] == name then Some(from)
    else FindMonth(name, from + 1)
  }

  /** Reading a month's abbreviation back gives the month. */
  lemma MonthNameRoundTrip(m: int)
    requires 0 <= m < 12
    ensures MonthIndex(MonthName(m)) == Some(m)
  {
    var name := Months[m];
    assert name[0] == "JFMAMJJASOND"[m] && name[2] == "nbrrynlgptvc"[m];
    forall i | 0 <= i < m ensures Months[i] != name {
      assert Months[i][0] == "JFMAMJJASOND"[i] && Months[i][2] == "nbrrynlgptvc"[i];
    }
    FindMonthSkips(name, m);
  }

  lemma {:induction false} FindMonthSkips(name: string, m: nat)
    requires m < 12 && Months[m] == name
    requires forall i :: 0 <= i < m ==> Months[i] != name
    ensures FindMonth(name, 0) == Some(m)
  {
    FindMonthFrom(name, 0, m);
  }

  lemma {:induction false} FindMonthFrom(name: string, from: nat, m: nat)
    requires from <= m < 12 && Months[m] == name
    requires forall i :: from <= i < m ==> Months[i] != name
    ensures FindMonth(name, from) == Some(m)
    decreases m - from
  {
    if from < m {
      FindMonthFrom(name, from + 1, m);
    }
  }

  /** No two months share an abbreviation. */
  lemma MonthsDistinct(i: int, j: int)
    requires 0 <= i < 12 && 0 <= j < 12 && i != j
    ensures MonthName(i) != MonthName(j)
  {
    MonthNameRoundTrip(i);
    MonthNameRoundTrip(j);
  }

  // ---------------------------------------------------------------- fields

  /** `field || fallback` for a text field. */
  function OrDefault(field: Option<string>, fallback: string): (r: string)
    ensures field.Some? && |field.value| > 0 ==> r == field.value
    ensures field.None? || |field.value| == 0 ==> r == fallback
  {
    if field.Some? && |field.value| > 0 then field.value else fallback
  }

  function Entries(raw: Option<seq<Option<string>>>): seq<Option<string>> {
    raw.GetOr([])
  }

  /**
   * `authorsRaw.map(normalizeName).filter(Boolean)`: the normalized names of
   * the author entries, in order, without the empty ones; a name given twice
   * is listed twice.
   */
  function AuthorList(raw: Option<seq<Option<string>>>): (authors: seq<string>)
    ensures forall a :: a in authors ==> |a| > 0 && Normalized(a)
    ensures forall a :: a in authors <==> a != "" && a in Seqs.Map(Entries(raw), NormalizeEntry)
    ensures Seqs.IsSubsequence(authors, Seqs.Map(Entries(raw), NormalizeEntry))
  {
    var names := Seqs.Map(Entries(raw), NormalizeEntry);
    Seqs.FilterIsSubsequence(names, (a: string) => a != "");
    var authors := Seqs.Filter(names, (a: string) => a != "");
    forall a | a in authors ensures Normalized(a) {
      var k :| 0 <= k < |names| && names[k] == a;
    }
    authors
  }

  /** Each non-empty normalized name occurs in the author list as often as among the normalized entries. */
  lemma AuthorListCounts(raw: Option<seq<Option<string>>>)
    ensures var names := Seqs.Map(Entries(raw), NormalizeEntry);
            forall a :: multiset(AuthorList(raw))[a] == if a != "" then multiset(names)[a] else 0
  {
    var names := Seqs.Map(Entries(raw), NormalizeEntry);
    assert AuthorList(raw) == Seqs.Filter(names, (a: string) => a != "");
    Seqs.FilterCount(names, (a: string) => a != "");
  }

  /** The author part of one style: the style's list, or `Unknown` when there are no authors. */
  function AuthorsOr(authors: seq<string>, format: seq<string> --> string): string
    requires |authors| > 0 ==> format.requires(authors)
  {
    if |authors| > 0 then format(authors) else Unknown
  }

  /** `${getDate()} ${monthName(getMonth())} ${getFullYear()}`. */
  function AccessedText(d: AccessDate): string
    requires 0 <= d.month < 12
  {
    IntToString(d.day) + " " + MonthName(d.month) + " " + IntToString(d.year)
  }

  // ---------------------------------------------------------------- the three styles

  /** The text fields of a citation after the script's defaults are applied. */
  datatype Fields = Fields(title: string, year: string, venue: string, url: string)

  /** A missing title, year, venue and URL read "Untitled", "n.d.", "Repository" and "". */
  function FieldsOf(meta: Meta): Fields {
    Fields(
      OrDefault(meta.title, "Untitled"),
      OrDefault(meta.year, "n.d."),
      OrDefault(meta.venue, "Repository"),
      OrDefault(meta.url, ""))
  }

  /** The pieces of the APA template: `authors (year). title. venue. url`. */
  function ApaPieces(authors: string, f: Fields): seq<string> {
    [authors, " (", f.year, "). ", f.title, ". ", f.venue, ". ", f.url]
  }

  /** The pieces of the MLA template: `authors. “title.” venue, year, url.`, with typographic quotes. */
  function MlaPieces(authors: string, f: Fields): seq<string> {
    [authors, ". “", f.title, ".” ", f.venue, ", ", f.year, ", ", f.url, "."]
  }

  /** The pieces of the Harvard template: `authors year. title. venue. Available at: url (Accessed date).`. */
  function HarvardPieces(authors: string, f: Fields, accessed: string): seq<string> {
    [authors, " ", f.year, ". ", f.title, ". ", f.venue, ". Available at: ", f.url, " (Accessed ", accessed, ")."]
  }

  /** The APA string: each field between the template's literal separators, starting with the authors. */
  function Apa(authors: string, f: Fields): (r: string)
    ensures Laid(r, ApaPieces(authors, f))
    ensures StartsWith(r, authors) && EndsWith(r, ". " + f.url)
  {
    var ps := ApaPieces(authors, f);
    ConcatLaid(ps);
    TemplateEnds(ps, 7);
    assert ps[7..] == [". ", f.url];
    ConcatPair(". ", f.url);
    Concat(ps)
  }

  /** The MLA string: each field between the template's literal separators, starting with the authors. */
  function Mla(authors: string, f: Fields): (r: string)
    ensures Laid(r, MlaPieces(authors, f))
    ensures StartsWith(r, authors) && EndsWith(r, ", " + f.url + ".")
  {
    var ps := MlaPieces(authors, f);
    ConcatLaid(ps);
    TemplateEnds(ps, 7);
    assert ps[7..] == [", ", f.url, "."];
    ConcatTriple(", ", f.url, ".");
    Concat(ps)
  }

  /** The Harvard string: each field between the template's literal separators, ending with the access date. */
  function Harvard(authors: string, f: Fields, accessed: string): (r: string)
    ensures Laid(r, HarvardPieces(authors, f, accessed))
    ensures StartsWith(r, authors) && EndsWith(r, " (Accessed " + accessed + ").")
  {
    var ps := HarvardPieces(authors, f, accessed);
    ConcatLaid(ps);
    TemplateEnds(ps, 9);
    assert ps[9..] == [" (Accessed ", accessed, ")."];
    ConcatTriple(" (Accessed ", accessed, ").");
    Concat(ps)
  }

  /**
   * `buildCitations`: each style's author list (or "[Author(s) unknown]" when
   * no author survives normalisation) in that style's template, with the
   * defaulted fields; only Harvard shows the access date.
   */
  function BuildCitations(meta: Meta, accessed: AccessDate): (c: Citations)
    requires 0 <= accessed.month < 12
    ensures var authors := AuthorList(meta.authors);
            var f := FieldsOf(meta);
            && Laid(c.apa, ApaPieces(AuthorsOr(authors, FormatAuthorsAPA), f))
            && Laid(c.mla, MlaPieces(AuthorsOr(authors, FormatAuthorsMLA), f))
            && Laid(c.harvard, HarvardPieces(AuthorsOr(authors, FormatAuthorsHarvard), f, AccessedText(accessed)))
  {
    var authors := AuthorList(meta.authors);
    var f := FieldsOf(meta);
    Citations(
      Apa(AuthorsOr(authors, FormatAuthorsAPA), f),
      Mla(AuthorsOr(authors, FormatAuthorsMLA), f),
      Harvard(AuthorsOr(authors, FormatAuthorsHarvard), f, AccessedText(accessed)))
  }

  /** The citations depend on the metadata only through the author list and the defaulted fields. */
  lemma SameFields(m1: Meta, m2: Meta, accessed: AccessDate)
    requires 0 <= accessed.month < 12
    requires m1.authors == m2.authors && FieldsOf(m1) == FieldsOf(m2)
    ensures BuildCitations(m1, accessed) == BuildCitations(m2, accessed)
  {
  }

  /** A missing or empty title cites as "Untitled"; a non-empty one is shown as given. */
  lemma TitleDefault(meta: Meta, accessed: AccessDate, untitled: string)
    requires 0 <= accessed.month < 12 && untitled == "Untitled"
    ensures BuildCitations(meta.(title := None), accessed) == BuildCitations(meta.(title := Some(untitled)), accessed)
    ensures BuildCitations(meta.(title := Some("")), accessed) == BuildCitations(meta.(title := Some(untitled)), accessed)
    ensures meta.title.Some? && meta.title.value != "" ==> FieldsOf(meta).title == meta.title.value
  {
    SameFields(meta.(title := None), meta.(title := Some(untitled)), accessed);
    SameFields(meta.(title := Some("")), meta.(title := Some(untitled)), accessed);
  }

  /** A missing or empty year cites as "n.d."; a non-empty one is shown as given. */
  lemma YearDefault(meta: Meta, accessed: AccessDate, undated: string)
    requires 0 <= accessed.month < 12 && undated == "n.d."
    ensures BuildCitations(meta.(year := None), accessed) == BuildCitations(meta.(year := Some(undated)), accessed)
    ensures BuildCitations(meta.(year := Some("")), accessed) == BuildCitations(meta.(year := Some(undated)), accessed)
    ensures meta.year.Some? && meta.year.value != "" ==> FieldsOf(meta).year == meta.year.value
  {
    SameFields(meta.(year := None), meta.(year := Some(undated)), accessed);
    SameFields(meta.(year := Some("")), meta.(year := Some(undated)), accessed);
  }

  /** A missing or empty venue cites as "Repository"; a non-empty one is shown as given. */
  lemma VenueDefault(meta: Meta, accessed: AccessDate, repository: string)
    requires 0 <= accessed.month < 12 && repository == "Repository"
    ensures BuildCitations(meta.(venue := None), accessed) == BuildCitations(meta.(venue := Some(repository)), accessed)
    ensures BuildCitations(meta.(venue := Some("")), accessed) == BuildCitations(meta.(venue := Some(repository)), accessed)
    ensures meta.venue.Some? && meta.venue.value != "" ==> FieldsOf(meta).venue == meta.venue.value
  {
    SameFields(meta.(venue := None), meta.(venue := Some(repository)), accessed);
    SameFields(meta.(venue := Some("")), meta.(venue := Some(repository)), accessed);
  }

  /** A missing URL cites as the empty URL; a given one is shown as it is. */
  lemma UrlDefault(meta: Meta, accessed: AccessDate)
    requires 0 <= accessed.month < 12
    ensures BuildCitations(meta.(url := None), accessed) == BuildCitations(meta.(url := Some("")), accessed)
    ensures meta.url.Some? ==> FieldsOf(meta).url == meta.url.value
  {
    SameFields(meta.(url := None), meta.(url := Some("")), accessed);
  }

  /** Without a usable author every style opens with "[Author(s) unknown]"; with one, each opens with its own author list. */
  lemma CitationsOpenWithAuthors(meta: Meta, accessed: AccessDate)
    requires 0 <= accessed.month < 12
    ensures var c := BuildCitations(meta, accessed);
            var authors := AuthorList(meta.authors);
            && (|authors| == 0 ==>
                  StartsWith(c.apa, Unknown) && StartsWith(c.mla, Unknown) && StartsWith(c.harvard, Unknown))
            && (|authors| > 0 ==>
                  && StartsWith(c.apa, FormatAuthorsAPA(authors))
                  && StartsWith(c.mla, FormatAuthorsMLA(authors))
                  && StartsWith(c.harvard, FormatAuthorsHarvard(authors)))
  {
  }

  /** The Harvard string ends with the access date. */
  lemma HarvardEndsWithAccessDate(meta: Meta, accessed: AccessDate)
    requires 0 <= accessed.month < 12
    ensures EndsWith(BuildCitations(meta, accessed).harvard, " (Accessed " + AccessedText(accessed) + ").")
  {
  }

  /** The APA and MLA strings do not depend on the access date. */
  lemma AccessDateOnlyInHarvard(meta: Meta, d1: AccessDate, d2: AccessDate)
    requires 0 <= d1.month < 12 && 0 <= d2.month < 12
    ensures BuildCitations(meta, d1).apa == BuildCitations(meta, d2).apa
    ensures BuildCitations(meta, d1).mla == BuildCitations(meta, d2).mla
  {
  }

  /** Metadata whose author entries are all missing, empty or blank has no authors. */
  lemma BlankAuthorsAreUnknown(raw: Option<seq<Option<string>>>)
    requires forall k :: 0 <= k < |Entries(raw)| ==> NormalizeEntry(Entries(raw)[k]) == ""
    ensures AuthorList(raw) == []
  {
    var authors := AuthorList(raw);
    var names := Seqs.Map(Entries(raw), NormalizeEntry);
    assert forall k :: 0 <= k < |names| ==> names[k] == "";
    forall a ensures a !in authors {
      if a != "" {
        assert a !in names;
      }
    }
    Seqs.HeadIsMember(authors);
  }

  // ---------------------------------------------------------------- the access date

  lemma NumberIsWord(n: int)
    ensures |IntToString(n)| > 0 && NoSpace(IntToString(n))
  {
    var s := IntToString(n);
    forall i | 0 <= i < |s| ensures !IsSpace(s[i]) {
      if n < 0 {
        assert s[i] == '-' || IsDigit(s[i]);
      } else {
        assert IsDigit(s[i]);
      }
    }
  }

  /** The access date text splits into day, month and year again, and each reads back as the value it shows. */
  lemma AccessedTextRoundTrip(d: AccessDate)
    requires 0 <= d.month < 12
    ensures var parts := SplitSpaces(AccessedText(d));
            && |parts| == 3
            && ParseInt(parts[0]) == d.day
            && MonthIndex(parts[1]) == Some(d.month)
            && ParseInt(parts[2]) == d.year
  {
    var words := [IntToString(d.day), MonthName(d.month), IntToString(d.year)];
    NumberIsWord(d.day);
    NumberIsWord(d.year);
    assert Join(words[2..], " ") == IntToString(d.year);
    assert Join(words[1..], " ") == MonthName(d.month) + " " + IntToString(d.year);
    assert Join(words, " ") == AccessedText(d);
    SplitJoinRoundTrip(words);
    IntToStringRoundTrip(d.day);
    IntToStringRoundTrip(d.year);
    MonthNameRoundTrip(d.month);
  }
}

=== FILE: names.dfy ===
/**
 * The citation name formatter of script.js: `normalizeName`, `invertName`,
 * `toSurnameInitials` and the author-list joiners `formatAuthorsAPA`,
 * `formatAuthorsMLA` and `formatAuthorsHarvard`.
 */
module Names {
  import opened Options
  import opened Text
  import Seqs

  /** No whitespace at either end, and every inner whitespace run is one plain space. */
  predicate Normalized(s: string) {
    && (|s| > 0 ==> !IsSpace(s[0]) && !IsSpace(s[|s| - 1]))
    && SingleSpaced(s)
  }

  /**
   * `normalizeName` on a string: trim, then turn each whitespace run into one
   * space. The result is the name's whitespace-separated words joined by single
   * spaces, the very words `invertName` and `toSurnameInitials` split it into.
   */
  function NormalizeName(n: string): (r: string)
    ensures Normalized(r)
    ensures Visible(r) == Visible(n)
    ensures r == Join(Tokens(n), " ")
  {
    var t := Trim(n);
    TrimSpec(n);
    CollapseSpec(t);
    JoinSplitIsCollapse(t);
    Collapse(t)
  }

  /** `normalizeName` on any author entry: a value that is not a string gives the empty name. */
  function NormalizeEntry(entry: Option<string>): (r: string)
    ensures entry.None? ==> r == ""
    ensures entry.Some? ==> r == NormalizeName(entry.value) && Normalized(r) && Visible(r) == Visible(entry.value)
  {
    match entry
    case Some(n) => NormalizeName(n)
    case None => ""
  }

  /** A normalized name is left as it is. */
  lemma NormalizedFixpoint(s: string)
    requires Normalized(s)
    ensures NormalizeName(s) == s
  {
    TrimUntrimmed(s);
    CollapseSingleSpaced(s);
  }

  lemma NormalizeIdempotent(n: string)
    ensures NormalizeName(NormalizeName(n)) == NormalizeName(n)
  {
    NormalizedFixpoint(NormalizeName(n));
  }

  // ---------------------------------------------------------------- one name

  /** `full.trim().split(/\s+/)`. */
  function Tokens(full: string): (tokens: seq<string>)
    ensures |tokens| >= 1
  {
    SplitSpaces(Trim(full))
  }

  /** The inverted form of a token list: the last token, a comma, then the other tokens; a single token as it is. */
  function Inverted(tokens: seq<string>): string
    requires |tokens| >= 1
  {
    if |tokens| == 1 then tokens[0]
    else tokens[|tokens| - 1] + ", " + Join(tokens[..|tokens| - 1], " ")
  }

  /** `invertName`. */
  function InvertName(full: string): string {
    Inverted(Tokens(full))
  }

  /** `t[0]?.toUpperCase() + "."`; an empty token reads `undefined` in the script. */
  function Initial(t: string): string {
    if |t| == 0 then "undefined." else [UpperChar(t[0])] + "."
  }

  /** The surname-initials form of a token list: the last token, a comma, then one initial per other token; a single token as it is. */
  function SurnameInitials(tokens: seq<string>): string
    requires |tokens| >= 1
  {
    if |tokens| == 1 then tokens[0]
    else tokens[|tokens| - 1] + ", " + Join(Seqs.Map(tokens[..|tokens| - 1], Initial), " ")
  }

  /** `toSurnameInitials`. */
  function ToSurnameInitials(full: string): string {
    SurnameInitials(Tokens(full))
  }

  lemma {:induction false} JoinEndsWithLast(parts: seq<string>, sep: string)
    requires |parts| >= 1
    ensures var j := Join(parts, sep);
            |j| >= |parts[|parts| - 1]| && j[|j| - |parts[|parts| - 1]|..] == parts[|parts| - 1]
    decreases |parts|
  {
    if |parts| > 1 {
      JoinEndsWithLast(parts[1..], sep);
      assert Join(parts, sep) == (parts[0] + sep) + Join(parts[1..], sep);
    }
  }

  /** The tokens of single-space-joined words are those words. */
  lemma TokensOfWords(words: seq<string>)
    requires |words| >= 1 && AreWords(words)
    ensures Tokens(Join(words, " ")) == words
  {
    var s := Join(words, " ");
    JoinStartsWithFirst(words, " ");
    JoinEndsWithLast(words, " ");
    assert s[0] == words[0][0];
    var last := words[|words| - 1];
    assert s[|s| - 1] == last[|last| - 1];
    TrimUntrimmed(s);
    SplitJoinRoundTrip(words);
  }

  /** For a name made of words, `invertName` puts the last word first, then a comma and the other words in order. */
  lemma InvertWords(words: seq<string>)
    requires |words| >= 1 && AreWords(words)
    ensures |words| == 1 ==> InvertName(Join(words, " ")) == words[0]
    ensures |words| >= 2 ==>
      InvertName(Join(words, " ")) == words[|words| - 1] + ", " + Join(words[..|words| - 1], " ")
  {
    TokensOfWords(words);
    assert InvertName(Join(words, " ")) == Inverted(words);
  }

  /** For a name made of words, `toSurnameInitials` puts the last word first, then the upper-cased initial and a period of each other word. */
  lemma InitialsWords(words: seq<string>)
    requires |words| >= 1 && AreWords(words)
    ensures |words| == 1 ==> ToSurnameInitials(Join(words, " ")) == words[0]
    ensures |words| >= 2 ==>
      var initials := seq(|words| - 1, i requires 0 <= i < |words| - 1 => [UpperChar(words[i][0])] + ".");
      ToSurnameInitials(Join(words, " ")) == words[|words| - 1] + ", " + Join(initials, " ")
  {
    TokensOfWords(words);
    assert ToSurnameInitials(Join(words, " ")) == SurnameInitials(words);
    if |words| >= 2 {
      var initials := seq(|words| - 1, i requires 0 <= i < |words| - 1 => [UpperChar(words[i][0])] + ".");
      assert Seqs.Map(words[..|words| - 1], Initial) == initials;
    }
  }

  /** A single word is its own inverted and surname-initials form. */
  lemma {:induction false} SingleWordUnchanged(w: string)
    requires |w| > 0 && NoSpace(w)
    ensures InvertName(w) == w && ToSurnameInitials(w) == w
  {
    InvertWords([w]);
    InitialsWords([w]);
  }

  /**
   * A non-empty normalized name, such as every entry of the author list, is
   * its words joined by single spaces: the shape `InvertWords` and
   * `InitialsWords` describe.
   */
  lemma NormalizedNameWords(a: string)
    requires |a| > 0 && Normalized(a)
    ensures AreWords(Tokens(a)) && Join(Tokens(a), " ") == a
  {
    NormalizedFixpoint(a);
    TrimUntrimmed(a);
    SplitSpacesWords(a);
  }

  // ---------------------------------------------------------------- author lists

  /**
   * The APA and Harvard list shape, as the script computes it: up to two parts
   * joined by " <conj> ", otherwise all but the last joined by ", ", then
   * ", <conj> " and the last part.
   */
  function Series(parts: seq<string>, conj: string): string {
    if |parts| <= 2 then Join(parts, " " + conj + " ")
    else Join(parts[..|parts| - 1], ", ") + ", " + conj + " " + parts[|parts| - 1]
  }

  /** Reference definition of a serial list: each part but the last followed by ", ", the conjunction before the last. */
  function Listing(parts: seq<string>, conj: string): string {
    if |parts| == 0 then ""
    else if |parts| == 1 then parts[0]
    else if |parts| == 2 then parts[0] + " " + conj + " " + parts[1]
    else Enumerate(parts, conj)
  }

  function Enumerate(parts: seq<string>, conj: string): string
    requires |parts| >= 1
  {
    if |parts| == 1 then conj + " " + parts[0]
    else parts[0] + ", " + Enumerate(parts[1..], conj)
  }

  lemma {:induction false} JoinThenConj(xs: seq<string>, y: string, conj: string)
    requires |xs| >= 1
    ensures Join(xs, ", ") + ", " + conj + " " + y == Enumerate(xs + [y], conj)
    decreases |xs|
  {
    assert (xs + [y])[0] == xs[0];
    assert (xs + [y])[1..] == xs[1..] + [y];
    if |xs| == 1 {
      assert xs[1..] + [y] == [y];
    } else {
      JoinThenConj(xs[1..], y, conj);
    }
  }

  /** The script's join/slice formula is the serial list. */
  lemma SeriesIsListing(parts: seq<string>, conj: string)
    ensures Series(parts, conj) == Listing(parts, conj)
  {
    var n := |parts|;
    if n == 2 {
      var sep := " " + conj + " ";
      assert Join(parts[1..], sep) == parts[1];
      assert Join(parts, sep) == parts[0] + sep + parts[1];
      assert parts[0] + sep + parts[1] == parts[0] + " " + conj + " " + parts[1];
    } else if n > 2 {
      JoinThenConj(parts[..n - 1], parts[n - 1], conj);
      assert parts[..n - 1] + [parts[n - 1]] == parts;
    }
  }

  /** `formatAuthorsAPA`: surname-initials forms as a serial list with "&". */
  function FormatAuthorsAPA(list: seq<string>): (r: string)
    ensures r == Listing(Seqs.Map(list, ToSurnameInitials), "&")
  {
    var parts := Seqs.Map(list, ToSurnameInitials);
    SeriesIsListing(parts, "&");
    Series(parts, "&")
  }

  /** `formatAuthorsHarvard`: surname-initials forms as a serial list with "and". */
  function FormatAuthorsHarvard(list: seq<string>): (r: string)
    ensures r == Listing(Seqs.Map(list, ToSurnameInitials), "and")
  {
    var parts := Seqs.Map(list, ToSurnameInitials);
    SeriesIsListing(parts, "and");
    Series(parts, "and")
  }

  /** `formatAuthorsMLA`: one or two inverted names, or the first inverted name and "et al."; the script needs at least one author. */
  function FormatAuthorsMLA(list: seq<string>): (r: string)
    requires |list| >= 1
    ensures |list| == 1 ==> Laid(r, [InvertName(list[0])])
    ensures |list| == 2 ==> Laid(r, [InvertName(list[0]), ", and ", InvertName(list[1])])
    ensures |list| >= 3 ==> Laid(r, [InvertName(list[0]), ", et al."])
    ensures StartsWith(r, InvertName(list[0]))
    ensures |list| == 2 ==> EndsWith(r, ", and " + InvertName(list[1]))
    ensures |list| >= 3 ==> EndsWith(r, ", et al.")
  {
    var pieces :=
      if |list| == 1 then [InvertName(list[0])]
      else if |list| == 2 then [InvertName(list[0]), ", and ", InvertName(list[1])]
      else [InvertName(list[0]), ", et al."];
    ConcatLaid(pieces);
    TemplateEnds(pieces, 1);
    if |list| == 2 then
      assert pieces[1..] == [", and ", InvertName(list[1])];
      ConcatPair(", and ", InvertName(list[1]));
      Concat(pieces)
    else if |list| >= 3 then
      assert pieces[1..] == [", et al."];
      ConcatOne(", et al.");
      Concat(pieces)
    else
      Concat(pieces)
  }

  /** Two authors in MLA: the first inverted, ", and ", the second inverted. */
  lemma MlaTwoAuthors(list: seq<string>)
    requires |list| == 2
    ensures FormatAuthorsMLA(list) == InvertName(list[0]) + ", and " + InvertName(list[1])
  {
    ConcatTriple(InvertName(list[0]), ", and ", InvertName(list[1]));
  }

  /** From three authors on, MLA shows the first author only: lists that share it give the same text. */
  lemma MlaUsesFirstAuthorOnly(a: seq<string>, b: seq<string>)
    requires |a| >= 3 && |b| >= 3 && a[0] == b[0]
    ensures FormatAuthorsMLA(a) == FormatAuthorsMLA(b) == InvertName(a[0]) + ", et al."
  {
  }

  // ---------------------------------------------------------------- concrete cases

  lemma JaneAnnDoeWords()
    ensures AreWords(["Jane", "Ann", "Doe"])
    ensures Join(["Jane", "Ann", "Doe"], " ") == "Jane Ann Doe"
  {
    assert NoSpace("Jane") && NoSpace("Ann") && NoSpace("Doe");
    assert Join(["Ann", "Doe"], " ") == "Ann Doe";
  }

  /**
   * "Jane Ann Doe" becomes "Doe, J. A.". The name is a parameter fixed by the
   * precondition, so that the verifier reasons about it through the lemmas
   * below instead of evaluating the functions on the literal.
   */
  lemma JaneAnnDoeInitials(name: string)
    requires name == "Jane Ann Doe"
    ensures ToSurnameInitials(name) == "Doe, J. A."
  {
    var words := ["Jane", "Ann", "Doe"];
    JaneAnnDoeWords();
    InitialsWords(words);
    JaneAnnInitials(words);
    assert words[..2] == ["Jane", "Ann"];
    var initials := seq(2, i requires 0 <= i < 2 => [UpperChar(words[i][0])] + ".");
    assert ToSurnameInitials(name) == "Doe" + ", " + Join(initials, " ");
  }

  /** The initials of "Jane Ann Doe": "J. A.". */
  lemma JaneAnnInitials(words: seq<string>)
    requires words == ["Jane", "Ann", "Doe"]
    ensures Join(seq(2, i requires 0 <= i < 2 => [UpperChar(words[i][0])] + "."), " ") == "J. A."
  {
    var initials := seq(2, i requires 0 <= i < 2 => [UpperChar(words[i][0])] + ".");
    assert words[0][0] == 'J' && words[1][0] == 'A';
    assert initials[0] == "J." && initials[1] == "A.";
    assert initials == ["J.", "A."];
  }

  /** The single name "Doe" is left as it is by both forms. */
  lemma DoeUnchanged()
    ensures InvertName("Doe") == "Doe" && ToSurnameInitials("Doe") == "Doe"
  {
    assert NoSpace("Doe");
    SingleWordUnchanged("Doe");
  }

  /** A two-word name: the surname-initials form is "Last, F." and the inverted form is "Last, First". */
  lemma TwoWordName(first: string, last: string)
    requires |first| > 0 && NoSpace(first) && |last| > 0 && NoSpace(last)
    ensures ToSurnameInitials(first + " " + last) == last + ", " + [UpperChar(first[0])] + "."
    ensures InvertName(first + " " + last) == last + ", " + first
  {
    var words := [first, last];
    assert AreWords(words);
    assert Join(words, " ") == first + " " + last by {
      assert Join(words[1..], " ") == last;
    }
    InvertWords(words);
    InitialsWords(words);
    assert words[..1] == [first];
    var initials := seq(1, i requires 0 <= i < 1 => [UpperChar(words[i][0])] + ".");
    assert initials == [[UpperChar(first[0])] + "."];
  }

  /** A list of three parts p0, p1, p2 is "p0, p1, <conj> p2". */
  lemma SerialOfThree(p: seq<string>, conj: string)
    requires |p| == 3
    ensures Listing(p, conj) == p[0] + ", " + p[1] + ", " + conj + " " + p[2]
  {
    assert p == [p[0], p[1], p[2]];
    SerialThree(p[0], p[1], p[2], conj);
  }

  /** Authors given as first and last words. */
  predicate TwoWordAuthors(list: seq<string>, first: seq<string>, last: seq<string>) {
    && |first| == |list| && |last| == |list|
    && (forall k :: 0 <= k < |list| ==> |first[k]| > 0 && NoSpace(first[k]) && |last[k]| > 0 && NoSpace(last[k]))
    && (forall k :: 0 <= k < |list| ==> list[k] == first[k] + " " + last[k])
  }

  /** The surname-initials forms of two-word authors: "Last, F.". */
  lemma TwoWordForms(list: seq<string>, first: seq<string>, last: seq<string>)
    requires TwoWordAuthors(list, first, last)
    ensures Seqs.Map(list, ToSurnameInitials)
            == seq(|list|, k requires 0 <= k < |list| => last[k] + ", " + [UpperChar(first[k][0])] + ".")
  {
    forall k | 0 <= k < |list|
      ensures ToSurnameInitials(list[k]) == last[k] + ", " + [UpperChar(first[k][0])] + "."
    {
      TwoWordName(first[k], last[k]);
    }
  }

  /**
   * Three two-word authors "F0 L0", "F1 L1", "F2 L2": APA gives
   * "L0, I0., L1, I1., & L2, I2.", where Ik is the upper-cased first letter of Fk,
   * and Harvard the same with "and".
   */
  lemma ThreeAuthors(list: seq<string>, first: seq<string>, last: seq<string>)
    requires |list| == 3 && TwoWordAuthors(list, first, last)
    ensures var p := seq(3, k requires 0 <= k < 3 => last[k] + ", " + [UpperChar(first[k][0])] + ".");
      && FormatAuthorsAPA(list) == p[0] + ", " + p[1] + ", & " + p[2]
      && FormatAuthorsHarvard(list) == p[0] + ", " + p[1] + ", and " + p[2]
  {
    TwoWordForms(list, first, last);
    var p := Seqs.Map(list, ToSurnameInitials);
    SerialOfThree(p, "&");
    SerialOfThree(p, "and");
  }

  /** Three or more two-word authors in MLA: "L0, F0, et al.". */
  lemma ThreeAuthorsMla(list: seq<string>, first: seq<string>, last: seq<string>)
    requires |list| >= 3 && TwoWordAuthors(list, first, last)
    ensures FormatAuthorsMLA(list) == last[0] + ", " + first[0] + ", et al."
  {
    TwoWordName(first[0], last[0]);
  }

  /** One two-word author in MLA: "L0, F0". */
  lemma OneAuthorMla(list: seq<string>, first: seq<string>, last: seq<string>)
    requires |list| == 1 && TwoWordAuthors(list, first, last)
    ensures FormatAuthorsMLA(list) == last[0] + ", " + first[0]
  {
    TwoWordName(first[0], last[0]);
  }

  /** Two two-word authors in MLA: "L0, F0, and L1, F1". */
  lemma TwoAuthorsMla(f0: string, l0: string, f1: string, l1: string)
    requires |f0| > 0 && NoSpace(f0) && |l0| > 0 && NoSpace(l0)
    requires |f1| > 0 && NoSpace(f1) && |l1| > 0 && NoSpace(l1)
    ensures FormatAuthorsMLA([f0 + " " + l0, f1 + " " + l1]) == l0 + ", " + f0 + ", and " + l1 + ", " + f1
  {
    var list := [f0 + " " + l0, f1 + " " + l1];
    TwoWordName(f0, l0);
    TwoWordName(f1, l1);
    MlaTwoAuthors(list);
    var c := l0 + ", " + f0 + ", and ";
    assert FormatAuthorsMLA(list) == c + (l1 + ", " + f1);
  }

  lemma SerialThree(a: string, b: string, c: string, conj: string)
    ensures Listing([a, b, c], conj) == a + ", " + b + ", " + conj + " " + c
  {
    var p := [a, b, c];
    assert p[1..] == [b, c] && p[1..][1..] == [c];
    assert Enumerate([c], conj) == conj + " " + c;
    assert Enumerate([b, c], conj) == b + ", " + (conj + " " + c);
    assert Listing(p, conj) == a + ", " + (b + ", " + (conj + " " + c));
  }
}

=== FILE: options.dfy ===
/** Optional values: a JSON field that may be absent or `null`. */
module Options {

  datatype Option<+T> = None | Some(value: T) {

    /** The carried value, or `default` when absent (JavaScript's `??`). */
    function GetOr(default: T): (r: T)
      ensures Some? ==> r == value
      ensures None? ==> r == default
    {
      match this
      case Some(v) => v
      case None => default
    }
  }
}

=== FILE: pagination.dfy ===
/**
 * `fetchAllRepos` in script.js: request the listing page by page, append each
 * page's records, stop after a short page or after the tenth page, and fail
 * as a whole on the first non-success status.
 *
 * The network is an oracle `respond`: `respond(p)` is the response to the
 * request for page `p`.
 */
module Pagination {
  import opened Repos

  /** Records requested per page (`per_page`). */
  const PerPage: nat := 100

  /** The safety cap on the number of page requests. */
  const MaxPages: nat := 10

  datatype PageResponse = Page(batch: seq<Repo>) | HttpError(status: int)

  /** The loader's outcome: every fetched record, or the status of the failing request and nothing else. */
  datatype FetchResult = Fetched(repos: seq<Repo>) | FetchError(status: int)

  /** A successful response holding at least a full page of records. */
  predicate FullPage(r: PageResponse) {
    r.Page? && |r.batch| >= PerPage
  }

  function BatchOf(r: PageResponse): seq<Repo> {
    if r.Page? then r.batch else []
  }

  /** The records of pages `lo` up to but excluding `hi`, concatenated in page order. */
  function Pages(respond: nat -> PageResponse, lo: nat, hi: nat): seq<Repo>
    decreases hi - lo
  {
    if lo >= hi then [] else BatchOf(respond(lo)) + Pages(respond, lo + 1, hi)
  }

  lemma {:induction false} PagesSnoc(respond: nat -> PageResponse, lo: nat, hi: nat)
    requires lo <= hi
    ensures Pages(respond, lo, hi + 1) == Pages(respond, lo, hi) + BatchOf(respond(hi))
    decreases hi - lo
  {
    if lo < hi {
      PagesSnoc(respond, lo + 1, hi);
    }
  }

  function Prepend(batch: seq<Repo>, rest: FetchResult): FetchResult {
    match rest
    case Fetched(repos) => Fetched(batch + repos)
    case FetchError(status) => FetchError(status)
  }

  /** Reference definition: the outcome of requesting pages `page`, `page + 1`, ... under the loop's stopping rules. */
  function FetchFrom(respond: nat -> PageResponse, page: nat): FetchResult
    requires 1 <= page <= MaxPages
    decreases MaxPages - page
  {
    match respond(page)
    case HttpError(status) => FetchError(status)
    case Page(batch) =>
      if |batch| < PerPage || page == MaxPages then Fetched(batch)
      else Prepend(batch, FetchFrom(respond, page + 1))
  }

  /** Reference definition: how many requests are made starting at `page`. */
  function RequestsFrom(respond: nat -> PageResponse, page: nat): nat
    requires 1 <= page <= MaxPages
    decreases MaxPages - page
  {
    match respond(page)
    case HttpError(_) => 1
    case Page(batch) =>
      if |batch| < PerPage || page == MaxPages then 1
      else 1 + RequestsFrom(respond, page + 1)
  }

  lemma FetchStep(respond: nat -> PageResponse, page: nat)
    requires 1 <= page < MaxPages
    requires FullPage(respond(page))
    ensures FetchFrom(respond, page) == Prepend(respond(page).batch, FetchFrom(respond, page + 1))
    ensures RequestsFrom(respond, page) == 1 + RequestsFrom(respond, page + 1)
  {
  }

  lemma PrependAssoc(a: seq<Repo>, b: seq<Repo>, rest: FetchResult)
    ensures Prepend(a, Prepend(b, rest)) == Prepend(a + b, rest)
  {
    if rest.Fetched? {
      assert a + (b + rest.repos) == a + b + rest.repos;
    }
  }

  /** The loader loop, returning its outcome and the number of page requests it made. */
  method FetchAllRepos(respond: nat -> PageResponse) returns (result: FetchResult, requests: nat)
    ensures 1 <= requests <= MaxPages
    ensures forall p :: 1 <= p < requests ==> FullPage(respond(p))
    ensures result.FetchError? <==> respond(requests).HttpError?
    ensures result.FetchError? ==> result.status == respond(requests).status
    ensures result.Fetched? ==> |respond(requests).batch| < PerPage || requests == MaxPages
    ensures result.Fetched? ==> result.repos == Pages(respond, 1, requests + 1)
    ensures result == FetchFrom(respond, 1) && requests == RequestsFrom(respond, 1)
  {
    var page: nat := 1;
    var all: seq<Repo> := [];
    requests := 0;
    while true
      invariant 1 <= page <= MaxPages
      invariant requests == page - 1
      invariant all == Pages(respond, 1, page)
      invariant forall p :: 1 <= p < page ==> FullPage(respond(p))
      invariant FetchFrom(respond, 1) == Prepend(all, FetchFrom(respond, page))
      invariant RequestsFrom(respond, 1) == requests + RequestsFrom(respond, page)
      decreases MaxPages - page
    {
      var res := respond(page);
      requests := requests + 1;
      if res.HttpError? {
        Fail(respond, page, all);
        return FetchError(res.status), requests;
      }
      Advance(respond, page, all);
      all := all + res.batch;
      if |res.batch| < PerPage {
        return Fetched(all), requests;
      }
      ghost var full := page;
      assert FullPage(respond(full));
      page := page + 1;
      forall p | 1 <= p < page ensures FullPage(respond(p)) {
        if p != full {
          assert p < full;
        }
      }
      if page > MaxPages {
        return Fetched(all), requests;
      }
    }
  }

  /** A failed request: the reference outcome is that request's status. */
  lemma Fail(respond: nat -> PageResponse, page: nat, all: seq<Repo>)
    requires 1 <= page <= MaxPages && respond(page).HttpError?
    requires FetchFrom(respond, 1) == Prepend(all, FetchFrom(respond, page))
    requires RequestsFrom(respond, 1) == page - 1 + RequestsFrom(respond, page)
    ensures FetchFrom(respond, 1) == FetchError(respond(page).status)
    ensures RequestsFrom(respond, 1) == page
  {
  }

  /** One successful page: its records extend the concatenation, and the reference outcome continues from the next page. */
  lemma Advance(respond: nat -> PageResponse, page: nat, all: seq<Repo>)
    requires 1 <= page <= MaxPages && respond(page).Page?
    requires all == Pages(respond, 1, page)
    requires FetchFrom(respond, 1) == Prepend(all, FetchFrom(respond, page))
    requires RequestsFrom(respond, 1) == page - 1 + RequestsFrom(respond, page)
    ensures all + respond(page).batch == Pages(respond, 1, page + 1)
    ensures !FullPage(respond(page)) || page == MaxPages ==>
      FetchFrom(respond, 1) == Fetched(all + respond(page).batch) && RequestsFrom(respond, 1) == page
    ensures FullPage(respond(page)) && page < MaxPages ==>
      && FetchFrom(respond, 1) == Prepend(all + respond(page).batch, FetchFrom(respond, page + 1))
      && RequestsFrom(respond, 1) == page + RequestsFrom(respond, page + 1)
  {
    PagesSnoc(respond, 1, page);
    if FullPage(respond(page)) && page < MaxPages {
      FetchStep(respond, page);
      PrependAssoc(all, respond(page).batch, FetchFrom(respond, page + 1));
    }
  }

  // ---------------------------------------------------------------- consequences

  /** With every one of the first ten pages full, exactly those ten pages are returned and nothing beyond them is requested. */
  lemma {:induction false} CapTruncates(respond: nat -> PageResponse, page: nat)
    requires 1 <= page <= MaxPages
    requires forall p :: page <= p <= MaxPages ==> FullPage(respond(p))
    ensures FetchFrom(respond, page) == Fetched(Pages(respond, page, MaxPages + 1))
    ensures RequestsFrom(respond, page) == MaxPages - page + 1
    decreases MaxPages - page
  {
    assert FullPage(respond(page));
    if page < MaxPages {
      CapTruncates(respond, page + 1);
    }
  }

  /** Two full pages and a page of forty give 240 records from three requests. */
  lemma ThreePages(r: Repo)
    ensures var full := seq(100, _ => r);
            var rest := seq(40, _ => r);
            var respond := (p: nat) => if p <= 2 then Page(full) else Page(rest);
            && FetchFrom(respond, 1) == Fetched(full + full + rest)
            && |full + full + rest| == 240
            && RequestsFrom(respond, 1) == 3
  {
    var full := seq(100, _ => r);
    var rest := seq(40, _ => r);
    var respond := (p: nat) => if p <= 2 then Page(full) else Page(rest);
    assert FetchFrom(respond, 3) == Fetched(rest);
    assert FetchFrom(respond, 2) == Fetched(full + rest);
    assert FetchFrom(respond, 1) == Fetched(full + (full + rest));
    assert full + (full + rest) == full + full + rest;
  }
}

=== FILE: repos.dfy ===
/**
 * The repository grid's view filter (`applyRepoFilters` in script.js) and the
 * homepage-link rule of a repository card (`repoCard`).
 *
 * The filter criteria that the script reads from form controls are explicit
 * parameters here.
 */
module Repos {
  import opened Options
  import opened Text
  import Seqs

  /** One entry of the repository listing, after JSON decoding. */
  datatype Repo = Repo(
    name: string,
    description: Option<string>,
    homepage: Option<string>,
    fork: bool,
    archived: bool,
    stars: Option<nat>,   // `stargazers_count`, possibly missing
    pushedAt: int         // `pushed_at`, as a timestamp in milliseconds
  )

  /** `stargazers_count || 0`. */
  function StarCount(r: Repo): nat {
    r.stars.GetOr(0)
  }

  /** The form state: search text, the two inclusion toggles and the sort selector's value. */
  datatype Criteria = Criteria(search: string, includeForks: bool, includeArchived: bool, sortKey: string)

  /** Repository names that are never shown, compared after lower-casing. */
  const BlockedNames: set<string> := {"jethro-portfolio", "jethro-kimande-cv"}

  /** Repositories whose lower-cased name starts with this prefix are never shown. */
  const HiddenPrefix: string := "plp"

  /** The search text as it is matched: trimmed, then lower-cased. */
  function Query(search: string): string {
    Lower(Trim(search))
  }

  /** The text a query is searched in: name, a space, and the description (empty when absent), lower-cased. */
  function Haystack(r: Repo): string {
    Lower(r.name + " " + r.description.GetOr(""))
  }

  /** The per-repository predicate of the view filter: every check must pass. */
  predicate Keep(r: Repo, c: Criteria) {
    var q := Query(c.search);
    && !(|r.name| > 0 && StartsWith(Lower(r.name), HiddenPrefix))
    && !(|r.name| > 0 && Lower(r.name) in BlockedNames)
    && (c.includeForks || !r.fork)
    && (c.includeArchived || !r.archived)
    && (|q| == 0 || Contains(Haystack(r), q))
  }

  /**
   * The filtered view: exactly the repositories of `all` that pass `Keep`, in
   * their listing order, each as often as the listing repeats it.
   */
  function FilterRepos(all: seq<Repo>, c: Criteria): (view: seq<Repo>)
    ensures forall r :: r in view <==> r in all && Keep(r, c)
    ensures forall r :: multiset(view)[r] == if Keep(r, c) then multiset(all)[r] else 0
    ensures Seqs.IsSubsequence(view, all)
  {
    Seqs.FilterIsSubsequence(all, r => Keep(r, c));
    Seqs.FilterCount(all, r => Keep(r, c));
    Seqs.Filter(all, r => Keep(r, c))
  }

  /** A hidden-prefix or blocked name never reaches the view, whatever the search text and toggles. */
  lemma HardExclusions(all: seq<Repo>, c: Criteria, r: Repo)
    requires StartsWith(Lower(r.name), HiddenPrefix) || Lower(r.name) in BlockedNames
    ensures r !in FilterRepos(all, c)
  {
  }

  /** Every repository in the view satisfies each of the toggles and the search. */
  lemma FilterShape(all: seq<Repo>, c: Criteria)
    ensures forall r :: r in FilterRepos(all, c) ==>
      && (c.includeForks || !r.fork)
      && (c.includeArchived || !r.archived)
      && (|Query(c.search)| > 0 ==> Contains(Lower(r.name + " " + r.description.GetOr("")), Query(c.search)))
      && !StartsWith(Lower(r.name), HiddenPrefix)
      && Lower(r.name) !in BlockedNames
  {
    forall r | r in FilterRepos(all, c)
      ensures !StartsWith(Lower(r.name), HiddenPrefix) && Lower(r.name) !in BlockedNames
    {
      if |r.name| == 0 {
        assert Lower(r.name) == "";
      }
    }
  }

  /** Filtering the view again with the same criteria changes nothing. */
  lemma FilterIdempotent(all: seq<Repo>, c: Criteria)
    ensures FilterRepos(FilterRepos(all, c), c) == FilterRepos(all, c)
  {
    Seqs.FilterIdempotent(all, r => Keep(r, c));
  }

  // ---------------------------------------------------------------- concrete cases

  const Plain := Repo("", None, None, false, false, None, 0)

  /** `plp-demo` is hidden even when every toggle is on and the search text is empty. */
  lemma PlpDemoHidden(all: seq<Repo>)
    ensures Plain.(name := "plp-demo") !in FilterRepos(all, Criteria("", true, true, "updated"))
  {
    HardExclusions(all, Criteria("", true, true, "updated"), Plain.(name := "plp-demo"));
  }

  /** A case variant of a blocked name is hidden. */
  lemma BlockedCaseVariantHidden(all: seq<Repo>)
    ensures Plain.(name := "Jethro-Portfolio") !in FilterRepos(all, Criteria("", true, true, "updated"))
  {
    assert Lower("Jethro-Portfolio") == "jethro-portfolio";
    HardExclusions(all, Criteria("", true, true, "updated"), Plain.(name := "Jethro-Portfolio"));
  }

  /**
   * The search is over the name as well as the description: a repository that
   * passes the other checks and whose lower-cased name contains the query at
   * some position is shown, whatever its description.
   */
  lemma SearchFindsNameFragment(r: Repo, c: Criteria, i: nat)
    requires !StartsWith(Lower(r.name), HiddenPrefix) && Lower(r.name) !in BlockedNames
    requires (c.includeForks || !r.fork) && (c.includeArchived || !r.archived)
    requires OccursAt(Lower(r.name), Query(c.search), i)
    ensures Keep(r, c)
    ensures FilterRepos([r], c) == [r]
  {
    var q := Query(c.search);
    var h := Haystack(r);
    assert h[..|r.name|] == Lower(r.name);
    assert h[i..i + |q|] == Lower(r.name)[i..i + |q|];
    assert OccursAt(h, q, i);
    Seqs.FilterKeepsAll([r], x => Keep(x, c));
  }

  // ---------------------------------------------------------------- homepage link

  /** A URL with an explicit http or https scheme. */
  predicate HasWebScheme(url: string) {
    StartsWith(url, "http://") || StartsWith(url, "https://")
  }

  /**
   * The "Live" link of a card as the script computes it: none for a missing or
   * empty homepage; the homepage itself when it starts with "http"; otherwise
   * "https://" followed by the homepage.
   */
  function HomepageLink(homepage: Option<string>): (link: Option<string>)
    ensures link.Some? <==> homepage.Some? && |homepage.value| > 0
    ensures link.Some? ==> StartsWith(link.value, "http") && EndsWith(link.value, homepage.value)
    ensures link.Some? && StartsWith(homepage.value, "http") ==> link.value == homepage.value
    ensures link.Some? && !StartsWith(homepage.value, "http") ==> link.value == "https://" + homepage.value
  {
    match homepage
    case None => None
    case Some(h) =>
      if |h| == 0 then None
      else if StartsWith(h, "http") then Some(h)
      else
        assert ("https://" + h)[..4] == "http";
        Some("https://" + h)
  }

  /** A host name that happens to begin with "http" passes the script's test unchanged, leaving a link without a scheme. */
  lemma HomepageLinkKeepsSchemelessHttpHost()
    ensures HomepageLink(Some("httpbin.org")) == Some("httpbin.org")
    ensures !HasWebScheme("httpbin.org")
  {
    var h := "httpbin.org";
    assert StartsWith(h, "http") by {
      assert h[..4] == "http";
    }
    // The fifth character is 'b', where "http://" has ':' and "https://" has 's'.
    assert !HasWebScheme(h) by {
      assert h[..7][4] == h[4] == 'b' && h[..8][4] == 'b';
    }
  }

  /** The evidently intended rule: keep a homepage that already has an http(s) scheme, otherwise prefix "https://". */
  function HomepageUrl(homepage: Option<string>): (link: Option<string>)
    ensures link.Some? <==> homepage.Some? && |homepage.value| > 0
    ensures link.Some? ==> HasWebScheme(link.value) && EndsWith(link.value, homepage.value)
    ensures link.Some? && HasWebScheme(homepage.value) ==> link.value == homepage.value
    ensures link.Some? && !HasWebScheme(homepage.value) ==> link.value == "https://" + homepage.value
  {
    match homepage
    case None => None
    case Some(h) =>
      if |h| == 0 then None
      else if HasWebScheme(h) then Some(h)
      else
        assert ("https://" + h)[..8] == "https://";
        Some("https://" + h)
  }

  /** Normalising a link a second time changes nothing. */
  lemma HomepageUrlIdempotent(homepage: Option<string>)
    ensures HomepageUrl(HomepageUrl(homepage)) == HomepageUrl(homepage)
  {
  }
}

=== FILE: seqs.dfy ===
/** Generic sequence operations shared by the repository pipeline and the citation builder. */
module Seqs {

  /** The elements of `s` satisfying `p`, in their original order (`Array.prototype.filter`). */
  function Filter<T(==,!new)>(s: seq<T>, p: T -> bool): (r: seq<T>)
    ensures |r| <= |s|
    ensures forall x :: x in r <==> x in s && p(x)
  {
    if |s| == 0 then []
    else
      assert s == [s[0]] + s[1..];
      if p(s[0]) then [s[0]] + Filter(s[1..], p) else Filter(s[1..], p)
  }

  /** Filtering keeps every passing element as often as `s` holds it, and drops the others entirely. */
  lemma {:induction false} FilterCount<T(!new)>(s: seq<T>, p: T -> bool)
    ensures forall x :: multiset(Filter(s, p))[x] == if p(x) then multiset(s)[x] else 0
    decreases |s|
  {
    if |s| > 0 {
      FilterCount(s[1..], p);
      assert s == [s[0]] + s[1..];
      assert multiset(s) == multiset{s[0]} + multiset(s[1..]);
    }
  }

  /** `a` can be obtained from `b` by deleting elements: an order-preserving sub-list. */
  predicate IsSubsequence<T(==,!new)>(a: seq<T>, b: seq<T>)
    decreases |b|
  {
    || |a| == 0
    || (|b| > 0 && ((a[0] == b[0] && IsSubsequence(a[1..], b[1..])) || IsSubsequence(a, b[1..])))
  }

  lemma {:induction false} FilterIsSubsequence<T(!new)>(s: seq<T>, p: T -> bool)
    ensures IsSubsequence(Filter(s, p), s)
    decreases |s|
  {
    if |s| > 0 {
      FilterIsSubsequence(s[1..], p);
    }
  }

  /** Filtering a sequence whose elements all pass leaves it unchanged. */
  lemma {:induction false} FilterKeepsAll<T(!new)>(s: seq<T>, p: T -> bool)
    requires forall i :: 0 <= i < |s| ==> p(s[i])
    ensures Filter(s, p) == s
    decreases |s|
  {
    if |s| > 0 {
      assert p(s[0]);
      FilterKeepsAll(s[1..], p);
      assert s == [s[0]] + s[1..];
    }
  }

  lemma FilterIdempotent<T(!new)>(s: seq<T>, p: T -> bool)
    ensures Filter(Filter(s, p), p) == Filter(s, p)
  {
    var f := Filter(s, p);
    forall i | 0 <= i < |f| ensures p(f[i]) {
      assert f[i] in f;
    }
    FilterKeepsAll(f, p);
  }

  /** Apply `f` to each element (`Array.prototype.map`). */
  function Map<T, U>(s: seq<T>, f: T -> U): (r: seq<U>)
    ensures |r| == |s|
    ensures forall i :: 0 <= i < |s| ==> r[i] == f(s[i])
  {
    seq(|s|, i requires 0 <= i < |s| => f(s[i]))
  }

  /** The first element of a non-empty sequence is one of its elements. */
  lemma HeadIsMember<T>(s: seq<T>)
    ensures |s| > 0 ==> s[0] in s
  {
  }
}

=== FILE: sorting.dfy ===
/**
 * `sortRepos` in script.js: a stable sort of the filtered view by the
 * selected key. `Array.prototype.sort` is stable, so equal keys keep their
 * input order; the model is a stable insertion sort on an integer rank,
 * largest rank first.
 */
module RepoSort {
  import opened Options
  import opened Repos
  import Seqs

  /** Ranks never increase along `s`. */
  predicate Descending(s: seq<Repo>, rank: Repo -> int) {
    forall i, j :: 0 <= i < j < |s| ==> rank(s[i]) >= rank(s[j])
  }

  /** The records of `s` whose rank is `k`, in their order in `s`. */
  function WithRank(s: seq<Repo>, rank: Repo -> int, k: int): seq<Repo> {
    if |s| == 0 then []
    else (if rank(s[0]) == k then [s[0]] else []) + WithRank(s[1..], rank, k)
  }

  /** Inserts `x` before the first record of `s` whose rank is not greater than its own. */
  function Insert(x: Repo, s: seq<Repo>, rank: Repo -> int): (r: seq<Repo>)
    ensures |r| == |s| + 1
  {
    if |s| == 0 || rank(x) >= rank(s[0]) then [x] + s
    else [s[0]] + Insert(x, s[1..], rank)
  }

  /** Inserting adds exactly `x` to the multiset of records. */
  lemma {:induction false} InsertMultiset(x: Repo, s: seq<Repo>, rank: Repo -> int)
    ensures multiset(Insert(x, s, rank)) == multiset(s) + multiset{x}
    decreases |s|
  {
    if |s| > 0 && rank(x) < rank(s[0]) {
      InsertMultiset(x, s[1..], rank);
      assert s == [s[0]] + s[1..];
    }
  }

  /** A record followed by a descending sequence of records ranked no higher is descending. */
  lemma DescendingCons(a: Repo, t: seq<Repo>, rank: Repo -> int)
    requires Descending(t, rank)
    requires forall j :: 0 <= j < |t| ==> rank(t[j]) <= rank(a)
    ensures Descending([a] + t, rank)
  {
    var r := [a] + t;
    forall i, j | 0 <= i < j < |r| ensures rank(r[i]) >= rank(r[j]) {
      assert r[j] == t[j - 1];
      if i > 0 {
        assert r[i] == t[i - 1];
      }
    }
  }

  /** Inserting into a descending sequence keeps it descending. */
  lemma {:induction false} InsertDescending(x: Repo, s: seq<Repo>, rank: Repo -> int)
    requires Descending(s, rank)
    ensures Descending(Insert(x, s, rank), rank)
    decreases |s|
  {
    if |s| == 0 || rank(x) >= rank(s[0]) {
      assert forall j :: 0 <= j < |s| ==> rank(s[j]) <= rank(s[0]);
      DescendingCons(x, s, rank);
    } else {
      var t := Insert(x, s[1..], rank);
      InsertDescending(x, s[1..], rank);
      InsertMultiset(x, s[1..], rank);
      forall j | 0 <= j < |t| ensures rank(t[j]) <= rank(s[0]) {
        assert t[j] in multiset(t);
        if t[j] != x {
          assert t[j] in multiset(s[1..]);
          var m :| 0 <= m < |s[1..]| && s[1..][m] == t[j];
          assert s[m + 1] == t[j];
        }
      }
      DescendingCons(s[0], t, rank);
    }
  }

  /** Stable sort, largest rank first. */
  function SortDesc(s: seq<Repo>, rank: Repo -> int): (r: seq<Repo>)
    ensures |r| == |s|
  {
    if |s| == 0 then [] else Insert(s[0], SortDesc(s[1..], rank), rank)
  }

  /** The sort's output is descending and is a permutation of its input. */
  lemma {:induction false} SortDescSpec(s: seq<Repo>, rank: Repo -> int)
    ensures Descending(SortDesc(s, rank), rank)
    ensures multiset(SortDesc(s, rank)) == multiset(s)
    decreases |s|
  {
    if |s| > 0 {
      SortDescSpec(s[1..], rank);
      InsertDescending(s[0], SortDesc(s[1..], rank), rank);
      InsertMultiset(s[0], SortDesc(s[1..], rank), rank);
      assert s == [s[0]] + s[1..];
    }
  }

  lemma {:induction false} InsertStable(x: Repo, s: seq<Repo>, rank: Repo -> int, k: int)
    ensures WithRank(Insert(x, s, rank), rank, k) == (if rank(x) == k then [x] else []) + WithRank(s, rank, k)
    decreases |s|
  {
    var r := Insert(x, s, rank);
    var hx := if rank(x) == k then [x] else [];
    if |s| == 0 || rank(x) >= rank(s[0]) {
      assert r == [x] + s;
      WithRankHead(r, rank, k);
      assert r[1..] == s;
    } else {
      var hs := if rank(s[0]) == k then [s[0]] else [];
      var rest := Insert(x, s[1..], rank);
      assert r == [s[0]] + rest;
      InsertStable(x, s[1..], rank, k);
      WithRankHead(r, rank, k);
      WithRankHead(s, rank, k);
      assert r[1..] == rest;
      assert WithRank(r, rank, k) == hs + (hx + WithRank(s[1..], rank, k));
      assert hs == [] || hx == [];
      assert hs + (hx + WithRank(s[1..], rank, k)) == hx + (hs + WithRank(s[1..], rank, k));
    }
  }

  /** For every rank, the records with that rank appear in the output in the same order as in the input. */
  lemma {:induction false} SortDescStable(s: seq<Repo>, rank: Repo -> int, k: int)
    ensures WithRank(SortDesc(s, rank), rank, k) == WithRank(s, rank, k)
    decreases |s|
  {
    if |s| > 0 {
      SortDescStable(s[1..], rank, k);
      InsertStable(s[0], SortDesc(s[1..], rank), rank, k);
    }
  }

  // ---------------------------------------------------------------- uniqueness

  lemma {:induction false} WithRankMember(s: seq<Repo>, rank: Repo -> int, k: int, i: nat)
    requires i < |WithRank(s, rank, k)|
    ensures WithRank(s, rank, k)[i] in s && rank(WithRank(s, rank, k)[i]) == k
    decreases |s|
  {
    if |s| > 0 {
      if rank(s[0]) == k && i == 0 {
      } else if rank(s[0]) == k {
        WithRankMember(s[1..], rank, k, i - 1);
      } else {
        WithRankMember(s[1..], rank, k, i);
      }
    }
  }

  /** A non-empty sequence has a record of its first record's rank. */
  lemma WithRankHeadPresent(s: seq<Repo>, rank: Repo -> int)
    ensures |s| > 0 ==> |WithRank(s, rank, rank(s[0]))| > 0
  {
  }

  /** One unfolding step of `WithRank` on any non-empty sequence: the head, if it has rank `k`, followed by the rank-`k` records of the rest. */
  lemma WithRankHead(s: seq<Repo>, rank: Repo -> int, k: int)
    requires |s| > 0
    ensures WithRank(s, rank, k) == (if rank(s[0]) == k then [s[0]] else []) + WithRank(s[1..], rank, k)
  {
  }

  /**
   * A descending sequence is fixed by its per-rank subsequences: any two that
   * agree on every rank are equal. So every stable sort by rank returns
   * exactly what `SortDesc` returns.
   */
  lemma {:induction false} StableSortUnique(a: seq<Repo>, b: seq<Repo>, rank: Repo -> int)
    requires Descending(a, rank) && Descending(b, rank)
    requires forall k :: WithRank(a, rank, k) == WithRank(b, rank, k)
    ensures a == b
    decreases |a| + |b|
  {
    if |a| == 0 && |b| == 0 {
    } else if |a| == 0 {
      assert false;
    } else if |b| == 0 {
      WithRankHeadPresent(a, rank);
      assert false;
    } else {
      var m := rank(a[0]);
      var n := rank(b[0]);
      // a[0] is the first record of rank m in a, so b holds one too, and b[0] ranks at least as high.
      assert WithRank(a, rank, m)[0] == a[0];
      WithRankMember(b, rank, m, 0);
      WithRankMember(a, rank, n, 0);
      assert WithRank(b, rank, n)[0] == b[0];
      assert m == n;
      assert a[0] == b[0];
      forall k ensures WithRank(a[1..], rank, k) == WithRank(b[1..], rank, k) {
        WithRankHead(a, rank, k);
        WithRankHead(b, rank, k);
        var h := if rank(a[0]) == k then [a[0]] else [];
        assert WithRank(a[1..], rank, k) == WithRank(a, rank, k)[|h|..];
        assert WithRank(b[1..], rank, k) == WithRank(b, rank, k)[|h|..];
      }
      StableSortUnique(a[1..], b[1..], rank);
      assert a == [a[0]] + a[1..];
      assert b == [b[0]] + b[1..];
    }
  }

  // ---------------------------------------------------------------- the sort selector

  /**
   * The rank a sort key orders by: star count for "stars"; for "name", the
   * negated position of the name in the locale collation `collation`, so
   * that names ascend; the push time for "updated" and any other value.
   */
  function RankFor(sortKey: string, collation: string -> int): Repo -> int {
    if sortKey == "stars" then (r: Repo) => StarCount(r)
    else if sortKey == "name" then (r: Repo) => -collation(r.name)
    else (r: Repo) => r.pushedAt
  }

  /** What a descending order under `RankFor` means for each sort key. */
  lemma RankForOrder(r: seq<Repo>, sortKey: string, collation: string -> int)
    requires Descending(r, RankFor(sortKey, collation))
    ensures sortKey == "stars" ==>
      forall i, j :: 0 <= i < j < |r| ==> StarCount(r[i]) >= StarCount(r[j])
    ensures sortKey == "name" ==>
      forall i, j :: 0 <= i < j < |r| ==> collation(r[i].name) <= collation(r[j].name)
    ensures sortKey != "stars" && sortKey != "name" ==>
      forall i, j :: 0 <= i < j < |r| ==> r[i].pushedAt >= r[j].pushedAt
  {
    var rank := RankFor(sortKey, collation);
    if sortKey == "stars" {
      assert forall i, j :: 0 <= i < j < |r| ==> rank(r[i]) >= rank(r[j]) && rank(r[i]) == StarCount(r[i]);
    } else if sortKey == "name" {
      assert forall i, j :: 0 <= i < j < |r| ==> rank(r[i]) >= rank(r[j]) && rank(r[i]) == -collation(r[i].name);
    } else {
      assert forall i, j :: 0 <= i < j < |r| ==> rank(r[i]) >= rank(r[j]) && rank(r[i]) == r[i].pushedAt;
    }
  }

  /** `sortRepos(list, key)`: a stable sort of `list` by the rank `sortKey` selects. */
  function SortRepos(list: seq<Repo>, sortKey: string, collation: string -> int): (r: seq<Repo>)
    ensures multiset(r) == multiset(list)
    ensures sortKey == "stars" ==>
      forall i, j :: 0 <= i < j < |r| ==> StarCount(r[i]) >= StarCount(r[j])
    ensures sortKey == "name" ==>
      forall i, j :: 0 <= i < j < |r| ==> collation(r[i].name) <= collation(r[j].name)
    ensures sortKey != "stars" && sortKey != "name" ==>
      forall i, j :: 0 <= i < j < |r| ==> r[i].pushedAt >= r[j].pushedAt
  {
    var r := SortDesc(list, RankFor(sortKey, collation));
    SortDescSpec(list, RankFor(sortKey, collation));
    RankForOrder(r, sortKey, collation);
    r
  }

  /** Records that tie under the selected key keep their relative input order. */
  lemma SortReposStable(list: seq<Repo>, sortKey: string, collation: string -> int, k: int)
    ensures WithRank(SortRepos(list, sortKey, collation), RankFor(sortKey, collation), k)
            == WithRank(list, RankFor(sortKey, collation), k)
  {
    SortDescStable(list, RankFor(sortKey, collation), k);
  }

  /**
   * `applyRepoFilters`: the filtered view, sorted by the selector's key. An
   * empty selector value falls back to "updated", which is also what the sort
   * does with any key other than "stars" and "name".
   */
  function ApplyRepoFilters(all: seq<Repo>, c: Criteria, collation: string -> int): (view: seq<Repo>)
    ensures forall r :: multiset(view)[r] == if Keep(r, c) then multiset(all)[r] else 0
    ensures Descending(view, RankFor(c.sortKey, collation))
    ensures forall k :: WithRank(view, RankFor(c.sortKey, collation), k)
                        == WithRank(FilterRepos(all, c), RankFor(c.sortKey, collation), k)
  {
    var kept := FilterRepos(all, c);
    SortDescSpec(kept, RankFor(c.sortKey, collation));
    SortDescStableAll(kept, RankFor(c.sortKey, collation));
    SortRepos(kept, c.sortKey, collation)
  }

  /**
   * The view is the only arrangement of the filtered repositories that is in
   * descending rank order and keeps every rank's records in listing order.
   */
  lemma ApplyRepoFiltersUnique(all: seq<Repo>, c: Criteria, collation: string -> int, other: seq<Repo>)
    requires Descending(other, RankFor(c.sortKey, collation))
    requires forall k :: WithRank(other, RankFor(c.sortKey, collation), k)
                         == WithRank(FilterRepos(all, c), RankFor(c.sortKey, collation), k)
    ensures other == ApplyRepoFilters(all, c, collation)
  {
    StableSortUnique(other, ApplyRepoFilters(all, c, collation), RankFor(c.sortKey, collation));
  }

  /** Applying the same criteria to the view again gives the same ordered view. */
  lemma ApplyRepoFiltersIdempotent(all: seq<Repo>, c: Criteria, collation: string -> int)
    ensures ApplyRepoFilters(ApplyRepoFilters(all, c, collation), c, collation) == ApplyRepoFilters(all, c, collation)
  {
    var view := ApplyRepoFilters(all, c, collation);
    forall i | 0 <= i < |view| ensures Keep(view[i], c) {
      assert view[i] in multiset(view);
    }
    Seqs.FilterKeepsAll(view, r => Keep(r, c));
    ApplyRepoFiltersUnique(view, c, collation, view);
  }

  /** Stability for every rank at once. */
  lemma SortDescStableAll(s: seq<Repo>, rank: Repo -> int)
    ensures forall k :: WithRank(SortDesc(s, rank), rank, k) == WithRank(s, rank, k)
  {
    forall k ensures WithRank(SortDesc(s, rank), rank, k) == WithRank(s, rank, k) {
      SortDescStable(s, rank, k);
    }
  }

  // ---------------------------------------------------------------- a concrete case

  /** Sorting stars [5, 10, 5] gives [10, 5, 5] with the two fives in input order. */
  lemma StarsExample(collation: string -> int)
    ensures var a := Plain.(name := "a", stars := Some(5));
            var b := Plain.(name := "b", stars := Some(10));
            var c := Plain.(name := "c", stars := Some(5));
            SortRepos([a, b, c], "stars", collation) == [b, a, c]
  {
    var a := Plain.(name := "a", stars := Some(5));
    var b := Plain.(name := "b", stars := Some(10));
    var c := Plain.(name := "c", stars := Some(5));
    var rank := RankFor("stars", collation);
    assert rank(a) == 5 && rank(b) == 10 && rank(c) == 5;
    SortedPair(b, c, rank);
    assert [a, b, c][0] == a && [a, b, c][1..] == [b, c];
    InsertBehind(a, b, c, rank);
  }

  lemma SortedPair(x: Repo, y: Repo, rank: Repo -> int)
    requires rank(x) >= rank(y)
    ensures SortDesc([x, y], rank) == [x, y]
  {
    assert SortDesc([y], rank) == [y];
    assert [x, y][0] == x && [x, y][1..] == [y] && [y][0] == y;
  }

  lemma InsertBehind(x: Repo, y: Repo, z: Repo, rank: Repo -> int)
    requires rank(y) > rank(x) >= rank(z)
    ensures Insert(x, [y, z], rank) == [y, x, z]
  {
    assert [y, z][0] == y && [y, z][1..] == [z] && [z][0] == z;
    assert Insert(x, [z], rank) == [x, z];
  }
}

=== FILE: text.dfy ===
/**
 * String primitives used by the page scripts: JavaScript's `trim`, the `\s`
 * character class, `split(/\s+/)`, `replace(/\s+/g, " ")`, `join`,
 * `startsWith`, `includes`, ASCII case folding and decimal rendering of
 * integers.
 */
module Text {

  /**
   * ECMAScript WhiteSpace and LineTerminator code points, what `trim` removes
   * and `\s` matches: TAB, LF, VT, FF, CR, SPACE, NO-BREAK SPACE, OGHAM SPACE
   * MARK, U+2000 to U+200A, LINE SEPARATOR, PARAGRAPH SEPARATOR, NARROW
   * NO-BREAK SPACE, MEDIUM MATHEMATICAL SPACE, IDEOGRAPHIC SPACE and the byte
   * order mark.
   */
  predicate IsSpace(c: char) {
    || '\t' <= c <= '\r'
    || c == ' ' || c == '\U{00A0}' || c == '\U{1680}'
    || '\U{2000}' <= c <= '\U{200A}'
    || c == '\U{2028}' || c == '\U{2029}' || c == '\U{202F}' || c == '\U{205F}'
    || c == '\U{3000}' || c == '\U{FEFF}'
  }

  // ---------------------------------------------------------------- case

  /** `toLowerCase`, restricted to ASCII letters. */
  function LowerChar(c: char): char {
    if 'A' <= c <= 'Z' then (c as int + 32) as char else c
  }

  /** `toUpperCase`, restricted to ASCII letters. */
  function UpperChar(c: char): char {
    if 'a' <= c <= 'z' then (c as int - 32) as char else c
  }

  function Lower(s: string): (r: string)
    ensures |r| == |s|
    ensures forall i :: 0 <= i < |s| ==> r[i] == LowerChar(s[i])
  {
    seq(|s|, i requires 0 <= i < |s| => LowerChar(s[i]))
  }

  // ---------------------------------------------------------------- search

  predicate StartsWith(s: string, prefix: string) {
    |prefix| <= |s| && s[..|prefix|] == prefix
  }

  /** `s.includes(q)`: `q` occurs as a contiguous substring of `s`. */
  predicate Contains(s: string, q: string) {
    exists i :: 0 <= i <= |s| && OccursAt(s, q, i)
  }

  predicate EndsWith(s: string, suffix: string) {
    |suffix| <= |s| && s[|s| - |suffix|..] == suffix
  }

  predicate OccursAt(s: string, q: string, i: nat) {
    i + |q| <= |s| && s[i..i + |q|] == q
  }

  // ---------------------------------------------------------------- visible content

  /** The characters of `s` that are not whitespace, in order. */
  function Visible(s: string): string {
    if |s| == 0 then ""
    else if IsSpace(s[0]) then Visible(s[1..])
    else [s[0]] + Visible(s[1..])
  }

  lemma {:induction false} VisibleAppend(a: string, b: string)
    ensures Visible(a + b) == Visible(a) + Visible(b)
    decreases |a|
  {
    if |a| > 0 {
      assert (a + b)[0] == a[0];
      assert (a + b)[1..] == a[1..] + b;
      VisibleAppend(a[1..], b);
    } else {
      assert a + b == b;
    }
  }

  // ---------------------------------------------------------------- trimming

  function TrimStart(s: string): (r: string)
    ensures |r| <= |s|
  {
    if |s| > 0 && IsSpace(s[0]) then TrimStart(s[1..]) else s
  }

  /** `TrimStart` drops exactly the leading whitespace of `s`. */
  lemma {:induction false} TrimStartSpec(s: string)
    ensures TrimStart(s) == s[|s| - |TrimStart(s)|..]
    ensures forall i :: 0 <= i < |s| - |TrimStart(s)| ==> IsSpace(s[i])
    ensures |TrimStart(s)| > 0 ==> !IsSpace(TrimStart(s)[0])
    ensures Visible(TrimStart(s)) == Visible(s)
    decreases |s|
  {
    if |s| > 0 && IsSpace(s[0]) {
      TrimStartSpec(s[1..]);
    }
  }

  function TrimEnd(s: string): (r: string)
    ensures |r| <= |s|
  {
    if |s| > 0 && IsSpace(s[|s| - 1]) then TrimEnd(s[..|s| - 1]) else s
  }

  /** `TrimEnd` drops exactly the trailing whitespace of `s`. */
  lemma {:induction false} TrimEndSpec(s: string)
    ensures TrimEnd(s) == s[..|TrimEnd(s)|]
    ensures forall i :: |TrimEnd(s)| <= i < |s| ==> IsSpace(s[i])
    ensures |TrimEnd(s)| > 0 ==> !IsSpace(TrimEnd(s)[|TrimEnd(s)| - 1])
    ensures Visible(TrimEnd(s)) == Visible(s)
    decreases |s|
  {
    if |s| > 0 && IsSpace(s[|s| - 1]) {
      var init := s[..|s| - 1];
      TrimEndSpec(init);
      assert s == init + [s[|s| - 1]];
      VisibleAppend(init, [s[|s| - 1]]);
    }
  }

  /** `s.trim()`. */
  function Trim(s: string): (r: string)
    ensures |r| <= |s|
  {
    TrimEnd(TrimStart(s))
  }

  /** `r` is the slice of `s` at offset `k`, and everything of `s` outside that slice is whitespace. */
  predicate TrimmedAt(s: string, r: string, k: nat) {
    && k + |r| <= |s|
    && r == s[k..k + |r|]
    && (forall i :: 0 <= i < k ==> IsSpace(s[i]))
    && (forall i :: k + |r| <= i < |s| ==> IsSpace(s[i]))
  }

  /** `Trim` removes the leading and trailing whitespace of `s`, and nothing else. */
  lemma TrimSpec(s: string)
    ensures TrimmedAt(s, Trim(s), |s| - |TrimStart(s)|)
    ensures |Trim(s)| > 0 ==> !IsSpace(Trim(s)[0]) && !IsSpace(Trim(s)[|Trim(s)| - 1])
    ensures Visible(Trim(s)) == Visible(s)
  {
    var t := TrimStart(s);
    TrimStartSpec(s);
    TrimEndSpec(t);
  }

  /** A string without leading or trailing whitespace is its own trim. */
  lemma TrimUntrimmed(s: string)
    requires |s| > 0 ==> !IsSpace(s[0]) && !IsSpace(s[|s| - 1])
    ensures Trim(s) == s
  {
    assert TrimStart(s) == s;
  }

  // ---------------------------------------------------------------- whitespace runs

  /** Every whitespace character is a plain space and is not followed by another whitespace character. */
  predicate SingleSpaced(s: string) {
    forall i :: 0 <= i < |s| ==> SingleSpaceAt(s, i)
  }

  predicate SingleSpaceAt(s: string, i: nat)
    requires i < |s|
  {
    IsSpace(s[i]) ==> s[i] == ' ' && (i + 1 < |s| ==> !IsSpace(s[i + 1]))
  }

  /** `s.replace(/\s+/g, " ")`: each maximal run of whitespace becomes one plain space. */
  function Collapse(s: string): (r: string)
    ensures |r| <= |s|
    decreases |s|
  {
    if |s| == 0 then ""
    else if IsSpace(s[0]) then " " + Collapse(TrimStart(s))
    else [s[0]] + Collapse(s[1..])
  }

  /** What `Collapse` guarantees: its result is single-spaced, starts and ends like `s`, and has the same visible characters. */
  lemma CollapseSpec(s: string)
    ensures |Collapse(s)| == 0 <==> |s| == 0
    ensures |s| > 0 ==> (IsSpace(Collapse(s)[0]) <==> IsSpace(s[0]))
    ensures |s| > 0 ==> (IsSpace(Collapse(s)[|Collapse(s)| - 1]) <==> IsSpace(s[|s| - 1]))
    ensures SingleSpaced(Collapse(s))
    ensures Visible(Collapse(s)) == Visible(s)
  {
    CollapseEnds(s);
    CollapseSingle(s);
    CollapseVisible(s);
  }

  /** Collapsing keeps emptiness and whether each end is whitespace. */
  lemma {:induction false} CollapseEnds(s: string)
    ensures |Collapse(s)| == 0 <==> |s| == 0
    ensures |s| > 0 ==> (IsSpace(Collapse(s)[0]) <==> IsSpace(s[0]))
    ensures |s| > 0 ==> (IsSpace(Collapse(s)[|Collapse(s)| - 1]) <==> IsSpace(s[|s| - 1]))
    decreases |s|
  {
    if |s| == 0 {
    } else if IsSpace(s[0]) {
      var t := TrimStart(s);
      TrimStartSpec(s);
      CollapseEnds(t);
      assert Collapse(s) == " " + Collapse(t);
      if |t| == 0 {
        assert IsSpace(s[|s| - 1]);
      } else {
        assert t[|t| - 1] == s[|s| - 1];
      }
    } else {
      CollapseEnds(s[1..]);
      assert Collapse(s) == [s[0]] + Collapse(s[1..]);
      if |s| > 1 {
        assert s[1..][|s| - 2] == s[|s| - 1];
      }
    }
  }

  /** Collapsing leaves only single plain spaces. */
  lemma {:induction false} CollapseSingle(s: string)
    ensures SingleSpaced(Collapse(s))
    decreases |s|
  {
    var r := Collapse(s);
    if |s| == 0 {
    } else if IsSpace(s[0]) {
      var t := TrimStart(s);
      TrimStartSpec(s);
      CollapseEnds(t);
      CollapseSingle(t);
      var c := Collapse(t);
      assert r == " " + c;
      forall i | 0 <= i < |r| ensures SingleSpaceAt(r, i) {
        if i > 0 {
          assert SingleSpaceAt(c, i - 1);
        }
      }
    } else {
      var c := Collapse(s[1..]);
      CollapseSingle(s[1..]);
      assert r == [s[0]] + c;
      forall i | 0 <= i < |r| ensures SingleSpaceAt(r, i) {
        if i > 0 {
          assert SingleSpaceAt(c, i - 1);
        }
      }
    }
  }

  /** Collapsing keeps the visible characters in order. */
  lemma {:induction false} CollapseVisible(s: string)
    ensures Visible(Collapse(s)) == Visible(s)
    decreases |s|
  {
    if |s| == 0 {
    } else if IsSpace(s[0]) {
      var t := TrimStart(s);
      TrimStartSpec(s);
      CollapseVisible(t);
      assert Collapse(s) == " " + Collapse(t);
      assert Visible(Collapse(s)) == Visible(Collapse(t));
    } else {
      CollapseVisible(s[1..]);
      assert Collapse(s) == [s[0]] + Collapse(s[1..]);
      assert Visible(Collapse(s)) == [s[0]] + Visible(Collapse(s[1..]));
    }
  }

  /** Collapsing leaves a single-spaced string unchanged. */
  lemma {:induction false} CollapseSingleSpaced(s: string)
    requires SingleSpaced(s)
    ensures Collapse(s) == s
    decreases |s|
  {
    if |s| > 0 {
      assert SingleSpaced(s[1..]) by {
        forall i | 0 <= i < |s[1..]| ensures SingleSpaceAt(s[1..], i) {
          assert SingleSpaceAt(s, i + 1);
        }
      }
      CollapseSingleSpaced(s[1..]);
      if IsSpace(s[0]) {
        assert SingleSpaceAt(s, 0);
        assert TrimStart(s) == TrimStart(s[1..]);
        assert TrimStart(s[1..]) == s[1..];
        assert Collapse(s) == " " + s[1..];
      }
      assert s == [s[0]] + s[1..];
    }
  }

  /** No character of `s` is whitespace. */
  predicate NoSpace(s: string) {
    forall i :: 0 <= i < |s| ==> !IsSpace(s[i])
  }

  /** Words: non-empty and free of whitespace. */
  predicate AreWords(words: seq<string>) {
    forall k :: 0 <= k < |words| ==> |words[k]| > 0 && NoSpace(words[k])
  }

  /** A prefix without whitespace passes through `Collapse` untouched. */
  lemma {:induction false} CollapseWordPrefix(u: string, v: string)
    requires NoSpace(u)
    ensures Collapse(u + v) == u + Collapse(v)
    decreases |u|
  {
    if |u| > 0 {
      assert !IsSpace(u[0]);
      assert (u + v)[1..] == u[1..] + v;
      CollapseWordPrefix(u[1..], v);
      assert (u + v)[0] == u[0];
      assert Collapse(u + v) == [u[0]] + Collapse(u[1..] + v);
      assert u == [u[0]] + u[1..];
    } else {
      assert u + v == v;
    }
  }

  // ---------------------------------------------------------------- split and join

  /** Index of the first whitespace character, or `|s|` when there is none. */
  function FirstSpace(s: string): (i: nat)
    ensures i <= |s|
  {
    if |s| == 0 || IsSpace(s[0]) then 0 else 1 + FirstSpace(s[1..])
  }

  lemma {:induction false} FirstSpaceSpec(s: string)
    ensures NoSpace(s[..FirstSpace(s)])
    ensures FirstSpace(s) < |s| ==> IsSpace(s[FirstSpace(s)])
    decreases |s|
  {
    if |s| > 0 && !IsSpace(s[0]) {
      var i := FirstSpace(s);
      FirstSpaceSpec(s[1..]);
      forall j | 0 <= j < i ensures !IsSpace(s[..i][j]) {
        if j > 0 {
          assert s[..i][j] == s[1..][..i - 1][j - 1];
        }
      }
    }
  }

  /** `s.split(/\s+/)`: the fields between maximal whitespace runs (an empty field where `s` starts or ends with whitespace). */
  function SplitSpaces(s: string): (r: seq<string>)
    ensures |r| >= 1
    decreases |s|
  {
    var i := FirstSpace(s);
    if i == |s| then [s] else [s[..i]] + SplitSpaces(TrimStart(s[i..]))
  }

  /** No field of `split(/\s+/)` contains whitespace. */
  lemma {:induction false} SplitSpacesFields(s: string)
    ensures forall k :: 0 <= k < |SplitSpaces(s)| ==> NoSpace(SplitSpaces(s)[k])
    decreases |s|
  {
    var i := FirstSpace(s);
    FirstSpaceSpec(s);
    if i < |s| {
      SplitSpacesFields(TrimStart(s[i..]));
    }
  }

  /** On a string with no whitespace at either end, no field of `split(/\s+/)` is empty. */
  lemma {:induction false} SplitSpacesNonEmpty(s: string)
    requires |s| > 0 && !IsSpace(s[0]) && !IsSpace(s[|s| - 1])
    ensures forall k :: 0 <= k < |SplitSpaces(s)| ==> |SplitSpaces(s)[k]| > 0
    decreases |s|
  {
    var i := FirstSpace(s);
    FirstSpaceSpec(s);
    if i < |s| {
      assert i > 0;
      var rest := s[i..];
      var t := TrimStart(rest);
      TrimStartSpec(rest);
      assert t == rest[|rest| - |t|..];
      assert |t| > 0 by {
        assert !IsSpace(rest[|rest| - 1]);
      }
      assert t[|t| - 1] == rest[|rest| - 1] == s[|s| - 1];
      SplitSpacesNonEmpty(t);
      var tail := SplitSpaces(t);
      assert SplitSpaces(s) == [s[..i]] + tail;
      forall k | 0 <= k < |SplitSpaces(s)| ensures |SplitSpaces(s)[k]| > 0 {
        if k > 0 {
          assert SplitSpaces(s)[k] == tail[k - 1];
        }
      }
    } else {
      assert SplitSpaces(s) == [s];
    }
  }

  /** On a string with no whitespace at either end, every field of `split(/\s+/)` is a non-empty word. */
  lemma SplitSpacesWords(s: string)
    requires |s| > 0 && !IsSpace(s[0]) && !IsSpace(s[|s| - 1])
    ensures AreWords(SplitSpaces(s))
  {
    SplitSpacesFields(s);
    SplitSpacesNonEmpty(s);
  }

  /** `parts.join(sep)`. */
  function Join(parts: seq<string>, sep: string): string
  {
    if |parts| == 0 then ""
    else if |parts| == 1 then parts[0]
    else parts[0] + sep + Join(parts[1..], sep)
  }

  lemma {:induction false} JoinStartsWithFirst(parts: seq<string>, sep: string)
    requires |parts| >= 1
    ensures StartsWith(Join(parts, sep), parts[0])
    decreases |parts|
  {
    if |parts| > 1 {
      assert Join(parts, sep) == parts[0] + (sep + Join(parts[1..], sep));
    }
  }

  /** Joining the fields of `split(/\s+/)` with single spaces is the same as collapsing whitespace runs. */
  lemma {:induction false} JoinSplitIsCollapse(s: string)
    ensures Join(SplitSpaces(s), " ") == Collapse(s)
    decreases |s|
  {
    var i := FirstSpace(s);
    FirstSpaceSpec(s);
    if i == |s| {
      assert s[..i] == s;
      CollapseWordPrefix(s, "");
      assert s + "" == s;
    } else {
      var t := TrimStart(s[i..]);
      JoinSplitIsCollapse(t);
      JoinCons(s[..i], SplitSpaces(t), " ");
      CollapseWordSpace(s[..i], s[i..]);
      assert s == s[..i] + s[i..];
    }
  }

  lemma JoinCons(u: string, rest: seq<string>, sep: string)
    requires |rest| >= 1
    ensures Join([u] + rest, sep) == u + (sep + Join(rest, sep))
  {
    assert ([u] + rest)[1..] == rest;
  }

  /** Collapsing a word followed by whitespace: the word, one space, then the rest collapsed. */
  lemma CollapseWordSpace(u: string, v: string)
    requires NoSpace(u) && |v| > 0 && IsSpace(v[0])
    ensures Collapse(u + v) == u + (" " + Collapse(TrimStart(v)))
  {
    CollapseWordPrefix(u, v);
  }

  /** Splitting single-space-joined words gives the words back. */
  lemma {:induction false} SplitJoinRoundTrip(words: seq<string>)
    requires |words| >= 1
    requires AreWords(words)
    ensures SplitSpaces(Join(words, " ")) == words
    decreases |words|
  {
    var w := words[0];
    if |words| == 1 {
      FirstSpaceOfWord(w, "");
      assert w + "" == w;
    } else {
      var rest := words[1..];
      var tail := Join(rest, " ");
      SplitJoinRoundTrip(rest);
      JoinStartsWithFirst(rest, " ");
      assert tail[0] == rest[0][0];
      var s := w + (" " + tail);
      assert Join(words, " ") == s;
      FirstSpaceOfWord(w, " " + tail);
      assert s[..|w|] == w;
      assert s[|w|..] == " " + tail;
      assert (" " + tail)[1..] == tail;
      assert TrimStart(" " + tail) == TrimStart(tail);
      assert TrimStart(tail) == tail;
      assert SplitSpaces(s) == [w] + SplitSpaces(tail);
      assert words == [w] + rest;
    }
  }

  lemma {:induction false} FirstSpaceOfWord(w: string, v: string)
    requires NoSpace(w)
    requires |v| > 0 ==> IsSpace(v[0])
    ensures FirstSpace(w + v) == |w|
    decreases |w|
  {
    if |w| > 0 {
      assert !IsSpace(w[0]);
      assert (w + v)[1..] == w[1..] + v;
      FirstSpaceOfWord(w[1..], v);
    } else {
      assert w + v == v;
    }
  }

  // ---------------------------------------------------------------- templates

  /** A template literal's text: its literal pieces and substituted values, concatenated in order. */
  function Concat(parts: seq<string>): string
    decreases |parts|
  {
    if |parts| == 0 then "" else Concat(parts[..|parts| - 1]) + parts[|parts| - 1]
  }

  /** Where piece `k` begins in the text: the length of all the pieces before it. */
  function Offset(parts: seq<string>, k: nat): nat
    requires k <= |parts|
  {
    |Concat(parts[..k])|
  }

  /** `s` shows every piece at its offset, and is exactly as long as the pieces together. */
  predicate Laid(s: string, parts: seq<string>) {
    && |s| == Offset(parts, |parts|)
    && forall k :: 0 <= k < |parts| ==> OccursAt(s, parts[k], Offset(parts, k))
  }

  /** Concatenation splits at any piece boundary. */
  lemma {:induction false} ConcatSplit(parts: seq<string>, j: nat)
    requires j <= |parts|
    ensures Concat(parts) == Concat(parts[..j]) + Concat(parts[j..])
    decreases |parts|
  {
    if j == |parts| {
      assert parts[..j] == parts && parts[j..] == [];
    } else {
      var n := |parts|;
      var init := parts[..n - 1];
      ConcatSplit(init, j);
      assert init[..j] == parts[..j];
      assert parts[j..][..n - 1 - j] == init[j..];
      assert parts[j..][n - 1 - j] == parts[n - 1];
    }
  }

  lemma ConcatOne(a: string)
    ensures Concat([a]) == a
  {
    assert [a][..0] == [];
  }

  /** The text of a template lays out each of its pieces. */
  lemma ConcatLaid(parts: seq<string>)
    ensures Laid(Concat(parts), parts)
  {
    assert parts[..|parts|] == parts;
    forall k | 0 <= k < |parts| ensures OccursAt(Concat(parts), parts[k], Offset(parts, k)) {
      PieceAt(parts, k);
    }
  }

  lemma PieceAt(parts: seq<string>, k: nat)
    requires k < |parts|
    ensures OccursAt(Concat(parts), parts[k], Offset(parts, k))
  {
    ConcatAround(parts, k);
    MiddleOccurs(Concat(parts[..k]), parts[k], Concat(parts[k + 1..]));
  }

  /** The text of a template is the pieces before `k`, piece `k`, and the pieces after it. */
  lemma ConcatAround(parts: seq<string>, k: nat)
    requires k < |parts|
    ensures Concat(parts) == Concat(parts[..k]) + parts[k] + Concat(parts[k + 1..])
  {
    var rest := parts[k..];
    ConcatSplit(parts, k);
    ConcatSplit(rest, 1);
    assert rest[..1] == [parts[k]];
    assert rest[1..] == parts[k + 1..];
    ConcatOne(parts[k]);
  }

  lemma MiddleOccurs(a: string, b: string, c: string)
    ensures OccursAt(a + b + c, b, |a|)
  {
    assert (a + b + c)[|a|..|a| + |b|] == b;
  }

  /** Two pieces read as their concatenation. */
  lemma ConcatPair(a: string, b: string)
    ensures Concat([a, b]) == a + b
  {
    assert [a, b][..1] == [a];
    ConcatOne(a);
  }

  /** Three pieces read as their concatenation. */
  lemma ConcatTriple(a: string, b: string, c: string)
    ensures Concat([a, b, c]) == a + b + c
  {
    assert [a, b, c][..2] == [a, b];
    ConcatPair(a, b);
  }

  /** The text of a template begins with its first piece and ends with the pieces from `j` on. */
  lemma TemplateEnds(parts: seq<string>, j: nat)
    requires 1 <= |parts| && j <= |parts|
    ensures StartsWith(Concat(parts), parts[0])
    ensures EndsWith(Concat(parts), Concat(parts[j..]))
  {
    ConcatLaid(parts);
    assert parts[..0] == [];
    ConcatSplit(parts, j);
    assert (Concat(parts[..j]) + Concat(parts[j..]))[|Concat(parts[..j])|..] == Concat(parts[j..]);
  }

  // ---------------------------------------------------------------- decimal numbers

  function DigitChar(d: int): (c: char)
    requires 0 <= d < 10
    ensures '0' <= c <= '9'
  {
    ('0' as int + d) as char
  }

  function DigitValue(c: char): int {
    c as int - '0' as int
  }

  predicate IsDigit(c: char) {
    '0' <= c <= '9'
  }

  /** Decimal rendering of a non-negative integer, as a template literal renders a number. */
  function NatToString(n: nat): (r: string)
    ensures |r| >= 1
    ensures forall i :: 0 <= i < |r| ==> IsDigit(r[i])
    ensures |r| > 1 ==> r[0] != '0'
    ensures n > 0 ==> r[0] != '0'
  {
    if n < 10 then [DigitChar(n)] else NatToString(n / 10) + [DigitChar(n % 10)]
  }

  /** Decimal rendering of an integer, with a leading '-' when it is negative. */
  function IntToString(n: int): (r: string)
    ensures Decimal(r)
  {
    if n < 0 then "-" + NatToString(-n) else NatToString(n)
  }

  /** Decimal digits without a leading zero, as a number is written: "0", "7", "120", but not "", "07" or "1:". */
  predicate Digits(d: string) {
    && |d| >= 1
    && (forall i :: 0 <= i < |d| ==> IsDigit(d[i]))
    && (|d| > 1 ==> d[0] != '0')
  }

  /** How an integer is written: its digits, after a '-' when it is negative (so never "-0"). */
  predicate Decimal(s: string) {
    if |s| > 0 && s[0] == '-' then Digits(s[1..]) && s[1] != '0' else Digits(s)
  }

  /** Reading a string of decimal digits back as a number. */
  function ParseDigits(s: string): int
  {
    if |s| == 0 then 0 else 10 * ParseDigits(s[..|s| - 1]) + DigitValue(s[|s| - 1])
  }

  function ParseInt(s: string): int
  {
    if |s| > 0 && s[0] == '-' then -ParseDigits(s[1..]) else ParseDigits(s)
  }

  lemma {:induction false} NatToStringRoundTrip(n: nat)
    ensures ParseDigits(NatToString(n)) == n
  {
    if n >= 10 {
      NatToStringRoundTrip(n / 10);
      var s := NatToString(n);
      assert s[..|s| - 1] == NatToString(n / 10);
    }
  }

  lemma IntToStringRoundTrip(n: int)
    ensures ParseInt(IntToString(n)) == n
  {
    if n < 0 {
      var digits := NatToString(-n);
      NatToStringRoundTrip(-n);
      var r := "-" + digits;
      assert r[0] == '-' && r[1..] == digits;
      assert ParseInt(r) == -ParseDigits(digits);
    } else {
      var digits := NatToString(n);
      NatToStringRoundTrip(n);
      assert digits[0] != '-';
    }
  }

  /** The value of a digit string is non-negative, and without a leading zero it has as many digits as it shows. */
  lemma {:induction false} DigitsValue(d: string)
    requires forall i :: 0 <= i < |d| ==> IsDigit(d[i])
    ensures ParseDigits(d) >= 0
    ensures |d| >= 1 && d[0] != '0' ==> ParseDigits(d) >= 1
    ensures |d| >= 2 && d[0] != '0' ==> ParseDigits(d) >= 10
    decreases |d|
  {
    if |d| > 0 {
      var p := d[..|d| - 1];
      DigitsValue(p);
      if |d| >= 2 {
        assert p[0] == d[0];
      }
    }
  }

  /** A digit string without a leading zero is the rendering of its own value. */
  lemma {:induction false} DigitsRoundTrip(d: string)
    requires Digits(d)
    ensures ParseDigits(d) >= 0 && NatToString(ParseDigits(d)) == d
    decreases |d|
  {
    DigitsValue(d);
    var m := ParseDigits(d);
    if |d| == 1 {
      assert DigitChar(DigitValue(d[0])) == d[0];
      assert d == [d[0]];
    } else {
      var p := d[..|d| - 1];
      var v := DigitValue(d[|d| - 1]);
      assert p[0] == d[0];
      DigitsRoundTrip(p);
      assert m == 10 * ParseDigits(p) + v && 0 <= v < 10;
      assert m / 10 == ParseDigits(p) && m % 10 == v;
      assert DigitChar(v) == d[|d| - 1];
      assert d == p + [d[|d| - 1]];
    }
  }

  /** Reading is the inverse of rendering on canonical decimal text: no other spelling reads back to the same value. */
  lemma DecimalRoundTrip(s: string)
    requires Decimal(s)
    ensures IntToString(ParseInt(s)) == s
  {
    if |s| > 0 && s[0] == '-' {
      var d := s[1..];
      DigitsRoundTrip(d);
      DigitsValue(d);
      assert s == "-" + d;
    } else {
      DigitsRoundTrip(s);
    }
  }
}

=== FILE: timeago.dfy ===
/**
 * `timeAgo` in script.js: a relative-time label for the time elapsed since a
 * repository was last pushed. The elapsed time is given directly in
 * milliseconds; it may be negative when the timestamp lies in the future.
 */
module RelativeTime {
  import opened Text

  datatype Unit = Minutes | Hours | Days | Months | Years

  /** An elapsed time as the label shows it: a whole number of one unit. */
  datatype Elapsed = Elapsed(amount: int, unit: Unit)

  /** Milliseconds in one unit; a month is 30 days and a year is 12 such months. */
  function UnitMs(u: Unit): int {
    match u
    case Minutes => 60_000
    case Hours => 60 * 60_000
    case Days => 24 * 60 * 60_000
    case Months => 30 * 24 * 60 * 60_000
    case Years => 12 * 30 * 24 * 60 * 60_000
  }

  function Suffix(u: Unit): string {
    match u
    case Minutes => "m ago"
    case Hours => "h ago"
    case Days => "d ago"
    case Months => "mo ago"
    case Years => "y ago"
  }

  // ---------------------------------------------------------------- floor division

  lemma DivUnique(a: int, d: int, q: int, r: int)
    requires d > 0 && 0 <= r < d && a == d * q + r
    ensures a / d == q
  {
    var q' := a / d;
    var r' := a % d;
    assert a == d * q' + r';
    assert d * (q' - q) == r - r' by {
      assert d * (q' - q) == d * q' - d * q;
    }
    if q' > q {
      MulGrows(d, q' - q);
    } else if q' < q {
      MulGrows(d, q - q');
    }
  }

  lemma MulGrows(d: int, k: int)
    requires d > 0 && k >= 1
    ensures d * k >= d
  {
    assert d * k == d + d * (k - 1);
  }

  /** Flooring twice is flooring once by the product. */
  lemma DivDiv(a: int, b: int, c: int)
    requires b > 0 && c > 0
    ensures a / b / c == a / (b * c)
  {
    var q, r := a / b, a % b;
    var q2, r2 := q / c, q % c;
    assert a == b * q + r;
    assert q == c * q2 + r2;
    Regroup(a, b, c, q, r, q2, r2);
    RemainderBound(b, c, r, r2);
    DivUnique(a, b * c, q2, b * r2 + r);
  }

  lemma Regroup(a: int, b: int, c: int, q: int, r: int, q2: int, r2: int)
    requires a == b * q + r && q == c * q2 + r2
    ensures a == (b * c) * q2 + (b * r2 + r)
  {
    calc {
      a;
      b * (c * q2 + r2) + r;
      { assert b * (c * q2 + r2) == b * (c * q2) + b * r2; }
      b * (c * q2) + b * r2 + r;
      { assert b * (c * q2) == (b * c) * q2; }
      (b * c) * q2 + (b * r2 + r);
    }
  }

  lemma RemainderBound(b: int, c: int, r: int, r2: int)
    requires b > 0 && 0 <= r < b && 0 <= r2 < c
    ensures 0 <= b * r2 + r < b * c
  {
    assert b * r2 <= b * (c - 1) by {
      assert b * (c - 1) - b * r2 == b * (c - 1 - r2);
    }
    assert b * (c - 1) == b * c - b;
  }

  /** `a / d < k` exactly when fewer than `k` whole units of `d` fit in `a`. */
  lemma DivLess(a: int, d: int, k: int)
    requires d > 0
    ensures a / d < k <==> a < k * d
  {
    var q, r := a / d, a % d;
    assert a == d * q + r;
    if q < k {
      assert d * q <= d * (k - 1);
    } else {
      assert d * q >= d * k;
    }
  }

  // ---------------------------------------------------------------- buckets

  /**
   * The cascade of `timeAgo`: whole minutes below an hour, whole hours below a
   * day, whole days below 30 days, whole 30-day months below 12 of them,
   * else whole 360-day years. Each step floors the previous count.
   */
  function Bucket(diffMs: int): (e: Elapsed)
    ensures e.amount == diffMs / UnitMs(e.unit)
    ensures e.unit == Minutes <==> diffMs < UnitMs(Hours)
    ensures e.unit == Hours <==> UnitMs(Hours) <= diffMs < UnitMs(Days)
    ensures e.unit == Days <==> UnitMs(Days) <= diffMs < UnitMs(Months)
    ensures e.unit == Months <==> UnitMs(Months) <= diffMs < UnitMs(Years)
    ensures e.unit == Years <==> UnitMs(Years) <= diffMs
  {
    var mins := diffMs / 60_000;
    DivLess(diffMs, 60_000, 60);
    if mins < 60 then Elapsed(mins, Minutes)
    else
      var hrs := mins / 60;
      DivDiv(diffMs, 60_000, 60);
      DivLess(diffMs, UnitMs(Hours), 24);
      if hrs < 24 then Elapsed(hrs, Hours)
      else
        var days := hrs / 24;
        DivDiv(diffMs, UnitMs(Hours), 24);
        DivLess(diffMs, UnitMs(Days), 30);
        if days < 30 then Elapsed(days, Days)
        else
          var months := days / 30;
          DivDiv(diffMs, UnitMs(Days), 30);
          DivLess(diffMs, UnitMs(Months), 12);
          if months < 12 then Elapsed(months, Months)
          else
            DivDiv(diffMs, UnitMs(Months), 12);
            Elapsed(months / 12, Years)
  }

  /**
   * The label: the whole number of units, written as a canonical decimal
   * integer, followed by the unit's suffix.
   */
  function TimeAgo(diffMs: int): (shown: string)
    ensures var e := Bucket(diffMs);
            var n := |shown| - |Suffix(e.unit)|;
            && n > 0
            && shown[n..] == Suffix(e.unit)
            && Decimal(shown[..n])
            && ParseInt(shown[..n]) == diffMs / UnitMs(e.unit)
  {
    var e := Bucket(diffMs);
    var digits := IntToString(e.amount);
    IntToStringRoundTrip(e.amount);
    var shown := digits + Suffix(e.unit);
    assert shown[..|digits|] == digits;
    shown
  }

  /**
   * The label of every elapsed time, unit by unit: the floor of the elapsed
   * milliseconds by the unit's length, rendered in decimal, then the suffix.
   */
  lemma {:induction false} TimeAgoLabels(diffMs: int)
    ensures diffMs < 60 * 60_000 ==> TimeAgo(diffMs) == IntToString(diffMs / 60_000) + "m ago"
    ensures 60 * 60_000 <= diffMs < 24 * 60 * 60_000 ==>
      TimeAgo(diffMs) == IntToString(diffMs / (60 * 60_000)) + "h ago"
    ensures 24 * 60 * 60_000 <= diffMs < 30 * 24 * 60 * 60_000 ==>
      TimeAgo(diffMs) == IntToString(diffMs / (24 * 60 * 60_000)) + "d ago"
    ensures 30 * 24 * 60 * 60_000 <= diffMs < 12 * 30 * 24 * 60 * 60_000 ==>
      TimeAgo(diffMs) == IntToString(diffMs / (30 * 24 * 60 * 60_000)) + "mo ago"
    ensures 12 * 30 * 24 * 60 * 60_000 <= diffMs ==>
      TimeAgo(diffMs) == IntToString(diffMs / (12 * 30 * 24 * 60 * 60_000)) + "y ago"
  {
    var e := Bucket(diffMs);
    var shown := TimeAgo(diffMs);
    var n := |shown| - |Suffix(e.unit)|;
    DecimalRoundTrip(shown[..n]);
    assert shown == shown[..n] + shown[n..];
  }

  // ---------------------------------------------------------------- boundaries

  /** The label of an elapsed time whose bucket is known. */
  lemma LabelOf(diffMs: int, e: Elapsed, digits: string)
    requires Bucket(diffMs) == e && IntToString(e.amount) == digits
    ensures TimeAgo(diffMs) == digits + Suffix(e.unit)
  {
  }

  /** The bucket boundaries: 59 minutes, one hour, one day, 30 days and 360 days. */
  lemma FiftyNineMinutes()
    ensures TimeAgo(59 * 60_000) == "59m ago"
  {
    assert NatToString(59) == "59" by {
      assert NatToString(5) == "5";
    }
    LabelOf(59 * 60_000, Elapsed(59, Minutes), "59");
  }

  lemma OneHour()
    ensures TimeAgo(60 * 60_000) == "1h ago"
  {
    LabelOf(60 * 60_000, Elapsed(1, Hours), "1");
  }

  lemma OneDay()
    ensures TimeAgo(24 * 60 * 60_000) == "1d ago"
  {
    LabelOf(24 * 60 * 60_000, Elapsed(1, Days), "1");
  }

  lemma OneMonth()
    ensures TimeAgo(30 * 24 * 60 * 60_000) == "1mo ago"
  {
    LabelOf(30 * 24 * 60 * 60_000, Elapsed(1, Months), "1");
  }

  lemma OneYear()
    ensures TimeAgo(360 * 24 * 60 * 60_000) == "1y ago"
  {
    LabelOf(360 * 24 * 60 * 60_000, Elapsed(1, Years), "1");
  }
}
